=== FILE: README.md ===
# hggraph branch topology in Dafny

This project models the core of `hggraph.py`. That script reads a Mercurial
log and reconstructs the branch topology of the repository: which changesets
matter on each branch, where branches start, where they end, and where they
merge into or branch off one another. It then lays that topology out as a
GraphViz graph. The model works in three layers.

- **Records and lookup** (`changesets.dfy`, with `strings.dfy` for Python's
  `str.split`, `str.join` and string order):
  - the changeset record `CSet`;
  - the revision-keyed cache `CSetCache`;
  - the children and parent helpers of `Utils`;
  - `HgGraph._searchOrGetCSet`, where the log source is an abstract partial
    function `string -> Option<CSet>`.
- **Classification and attachment** (`classify.dfy`, `grouping.dfy`,
  `topology.dfy`, `attach_theorems.dfy`):
  - the tests `_isMerge`, `_isBranch` and `_isTip`;
  - the per-branch groups of interesting changesets, sorted by revision;
  - the deduplicating link map `brLinks`;
  - the four attachment loops of `buildChangeSets`: branch origins fill
    `tailCsets`, tips fill `tipCsets`, merges fill `leafCsets`, and
    branch-offs fill `leafCsets`.
- **Rendering structure** (`render.dfy`):
  - the round-robin palette;
  - the node map built by `_generateNodes`, where the last write wins;
  - the label layout chosen by `Utils.createGraphVizNode`;
  - each branch's subgraph and its spine of `len - 1` links;
  - the branch order chosen by `_arrangeBranches`;
  - the dashed cross-branch links.

Each attachment loop is modelled twice:

- as a fold that runs the source's helper once per visited changeset;
- as a reference `Contribution`: the edges it offers to `brLinks` and the
  changesets it writes to the tails, tips and leaves.

`RunAllIsApply` and the contract of `Topology.Attach` prove that the two models agree. The
theorems in `attach_theorems.dfy` read the final `brLinks`, `tailCsets`,
`tipCsets` and `leafCsets` off the contribution:

- the first insertion under a key wins in `brLinks`;
- the last write under a key wins in the changeset maps;
- `leafCsets` is a plain list.

Where the code does something other than its comments or design suggest,
the model follows the code:

- **Link key.** `_addBrLinkIfNotExist` keys links by the concatenation
  `start.rev + end.rev` (hggraph.py:410). So the links `1 -> 23` and
  `12 -> 3` collide, and the second is dropped (`Topology.LinkKeyCollision`).
- **Cache overwrite.** `CSetCache.add` guards with `hasRev(set)`, passing the
  builtin `set` (hggraph.py:90). The guard never fires, so a later record
  overwrites an earlier one under the same revision (`ChangeSets.Add`).
- **Revision order.** Revisions are strings, and changesets sort by Python
  string order, not numerically (hggraph.py:56-60, 531).
- **Merge test.** `_isMerge` calls any changeset with two real parents a
  merge, whatever the parents' branches (hggraph.py:474-475).
- **Branch-point test.** `_isBranch` returns `None` when no child qualifies
  (hggraph.py:484-492). Its caller reads that as false.
- **Unguarded children.** `_addBranchingLinks` splits an empty children
  string into one token, so it looks up the revision `""` (hggraph.py:459,
  `Topology.EmptyChildrenLooksUpEmptyRev`).
- **Leaf duplicates.** `leafCsets` is a list, so a changeset can appear in it
  more than once.
- **Shared "BR" label.** Branch origins and branch-offs both use the label
  "BR".

The source crashes in a few places. These are `requires` clauses, because
the source does not handle them:

- the log must not be empty (`csets[0]`, hggraph.py:534);
- every branch group must be non-empty (`l[0]` and `l[-1]`, hggraph.py:539
  and 543);
- in `_isMerge`, the single parent of a single-parent changeset must
  resolve (hggraph.py:479-480);
- the palette must not be empty when there is a branch to colour
  (hggraph.py:594-598).

## Model

| member | source | states |
|---|---|---|
| Strings.Split | hggraph.py:176-184 | Python `str.split(sep)`: at least one part, no part contains the separator, and the first part is the prefix of the string up to the first separator |
| Strings.FirstField | hggraph.py:182 | `x.split(sep)[0]` is the longest separator-free prefix: it is followed by the separator when shorter than the string, and is the whole string when no separator occurs |
| Strings.JoinSplit | hggraph.py:176-184 | joining the parts of a split with the same separator gives back the original string |
| Strings.SplitJoin | hggraph.py:176-184 | splitting a join of separator-free parts gives back exactly those parts |
| Strings.SplitFieldThenSep | hggraph.py:182 | splitting `a + sep + t`, when `a` has no separator, gives `a` followed by the parts of `t`; so `a` is its first field |
| Strings.SplitWithoutSep | hggraph.py:182 | splitting a string without the separator gives the one-element list of that string |
| Strings.LessTransitive | hggraph.py:56-60 | Python string order on revisions is transitive |
| Strings.LessTotal | hggraph.py:531 | any two distinct revisions are ordered one way or the other |
| Strings.LessIrreflexive | hggraph.py:56-57 | no revision sorts before itself |
| Strings.LessAsymmetric | hggraph.py:56-60 | `a < b` and `b < a` never both hold |
| Strings.LessEqTransitive | hggraph.py:531 | the non-strict order used for sortedness is transitive |
| ChangeSets.Add | hggraph.py:89-93 | `CSetCache.add` always files the record under its revision, replacing any earlier record, and leaves every other revision alone |
| ChangeSets.HasRev | hggraph.py:79-86 | `hasRev` holds exactly when the revision is in the cache |
| ChangeSets.SearchCSet | hggraph.py:96-103 | `searchCSet` by revision finds a record exactly when the revision is cached, and in a self-filed cache the record carries that revision |
| ChangeSets.AddAll | hggraph.py:515-520 | after adding a whole log, the cache holds every revision of it, each mapped to the last record in the log with that revision; other revisions keep their old records, and a cache of self-filed records stays self-filed |
| ChangeSets.RecordLastWins | hggraph.py:89-93 | a sequence of keyed writes holds the old keys plus the written revisions, leaves unwritten keys alone, and keeps the last write under each revision |
| ChangeSets.RecordKeys | hggraph.py:89-93 | a sequence of keyed writes holds exactly the old keys plus the written revisions |
| ChangeSets.RecordValues | hggraph.py:627-669 | each entry after keyed writes is an untouched old entry, or the value written for the last record carrying its key |
| ChangeSets.RecordSelfValues | hggraph.py:432-437 | when records are filed under their own revisions, each entry is an old one or a written record whose revision is its key |
| ChangeSets.RecordAppend | hggraph.py:89-93 | writing `a + b` is writing `a` and then `b` |
| ChangeSets.LastExists | hggraph.py:627-669 | every revision written has a last write |
| ChangeSets.WriteBackUnobservable | hggraph.py:419-425 | `_searchOrGetCSet` resolves the sentinel to nothing, then asks the cache, then the source; when the source fetches a record with the asked revision, writing it back into the cache changes no later lookup, so lookup can be modelled as a pure function |
| ChangeSets.SearchOrGet | hggraph.py:419-425 | `_searchOrGetCSet` gives nothing for the sentinel revision, the cached record for a cached revision, and otherwise what the source returns; from a self-filed cache and source the record found carries the asked revision |
| ChangeSets.GetChildrenRevs | hggraph.py:176-184 | `getChildrenRevs` gives `[]` for an empty children string, and otherwise one revision per space-separated token, in order, each the part of its token before its first `:` |
| ChangeSets.ChildrenRevsRoundTrip | hggraph.py:176-184 | a children field printed as `rev:hash` tokens joined by spaces parses back to exactly those revisions, including the empty list |
| ChangeSets.ChildTokens | hggraph.py:459 | the unguarded token list of the children string yields one revision per space-separated token, at least one, each the part of its token before its first `:` |
| ChangeSets.ChildTokensOfNoChildren | hggraph.py:459 | the unguarded comprehension over an empty children string yields the single revision `""` |
| ChangeSets.GetParentRevs | hggraph.py:186-192 | `getParentRevs` lists one revision per real parent and never the sentinel: exactly the real ones among p1 and p2, with p1 first and p2 last |
| ChangeSets.HasParents | hggraph.py:133-134 | `hasParents` holds exactly when `getParentRevs` lists a parent |
| Classify.IsMerge | hggraph.py:473-482 | `_isMerge` holds exactly when there are two real parents, or one that resolves to a changeset on another branch |
| Classify.RootIsNotMerge | hggraph.py:476-477 | a changeset with no parents can be tested, is not a merge, and lists no parent |
| Classify.FindChildExists | hggraph.py:488-502 | the early-exit child loop finds a child exactly when some child token resolves with the wanted branch relation; unresolved tokens are skipped |
| Classify.IsBranch | hggraph.py:484-492 | `_isBranch` is true exactly when the children string is non-empty and some child resolves to a different branch; otherwise its `None` counts as false |
| Classify.IsTip | hggraph.py:494-503 | `_isTip` is true for an empty children string, and otherwise is false exactly when some child resolves to the same branch |
| Classify.Interesting | hggraph.py:527-529 | a changeset is kept exactly when it is a merge, its children string is empty, some child resolves to another branch, no child resolves to its own branch, or it carries tags |
| Classify.PlainChangesetNotInteresting | hggraph.py:527-529 | a changeset with one same-branch parent, a same-branch child, no foreign child and no tag is dropped from its group |
| Grouping.BranchKeys | hggraph.py:523-531 | `brs` is keyed in strictly increasing branch order, one key per branch of the log |
| Grouping.InsertKey | hggraph.py:523-524 | inserting a branch into the ordered key list keeps it strictly increasing and adds exactly that branch |
| Grouping.LessThanAll | hggraph.py:523-524 | a key below the head of a strictly increasing list can be prepended |
| Grouping.StrictlyIncreasingDistinct | hggraph.py:523-524 | a strictly increasing key list has no repeats |
| Grouping.Filter | hggraph.py:526-529 | the kept changesets are exactly those of the group that pass the test, drawn from the group |
| Grouping.FilterCounts | hggraph.py:526-529 | each changeset that passes the test occurs in the result as often as in the group, and one that fails does not occur |
| Grouping.FilterUnique | hggraph.py:526-529 | filtering a log with distinct revisions keeps them distinct |
| Grouping.InsertByRev | hggraph.py:531 | inserting into a revision-sorted group keeps it sorted and adds exactly that changeset |
| Grouping.InsertByRevPermutes | hggraph.py:531 | that insertion adds exactly one occurrence of the changeset |
| Grouping.SortByRev | hggraph.py:531 | `sorted(l, key=rev)` is a permutation of `l` sorted by revision in string order |
| Grouping.InsertByRevUnique | hggraph.py:531 | inserting a changeset whose revision is new keeps revisions distinct |
| Grouping.SortByRevUnique | hggraph.py:531 | sorting keeps revisions distinct and then strictly increasing |
| Grouping.Group | hggraph.py:525-531 | `brs[b]` holds exactly the log's changesets on branch `b` that are a merge, a branch point, a tip or tagged, each as often as in the log, sorted by revision |
| Grouping.GroupStrictlyIncreasing | hggraph.py:531 | in a log with distinct revisions, each group's revisions strictly increase |
| Topology.AddBrLinkIfNotExist | hggraph.py:409-417 | a key already present keeps its link whatever the new kind; otherwise exactly the key `start.rev + end.rev` is added with `(start, end, type)`; no other entry changes |
| Topology.InsertAllFirstWins | hggraph.py:409-417 | after a run of link insertions, every new key holds the first link offered under it and old keys are unchanged |
| Topology.InsertAllAppend | hggraph.py:409-417 | inserting `a + b` is inserting `a` and then `b` |
| Topology.FirstWithKey | hggraph.py:409-417 | the first offered link under a key is offered, carries that key, and no earlier link does |
| Topology.FirstWithKeyOfPrefix | hggraph.py:409-417 | links offered later never displace the first link under a key |
| Topology.LinkKeyCollision | hggraph.py:410 | the links `1 -> 23` and `12 -> 3` share the key "123", and only the first survives |
| Topology.FirstWithKeyOfSuffix | hggraph.py:409-417 | links offered earlier under other keys do not change which link is first under a key |
| Topology.FirstWithKeyInSecond | hggraph.py:537-547 | a key the origin loop never offers but the tip loop does is first offered by the tip loop, whatever the later loops offer |
| Topology.InsertAllKeyed | hggraph.py:409-417 | `brLinks` only ever files a link under the key of its own two ends |
| Topology.TipOf | hggraph.py:454 | the synthetic tip is on branch "Tip", has no children and no tags, and its revision is `l.rev + "Tip"`, which differs from `l.rev` |
| Topology.ForeignParents | hggraph.py:427-449 | the parents `_addSourceParentBranch` and `_addParentBranch` act on are exactly the resolved parents on another branch, p1 first and p2 last, one per such parent, and none for a root |
| Topology.ResolveOff | hggraph.py:459-465 | the children `_addBranchingLinks` collects are exactly the tokens that resolve to another branch |
| Topology.EmptyChildrenLooksUpEmptyRev | hggraph.py:459-465 | with an empty children string, `_addBranchingLinks` links to whatever the revision `""` resolves to on another branch |
| Topology.AddSourceParentBranch | hggraph.py:427-437 | `_addSourceParentBranch` has exactly the effect of its reference contribution: links to the foreign parents, written to `tailCsets` |
| Topology.AddParentBranch | hggraph.py:439-449 | `_addParentBranch` has exactly the effect of its reference contribution: links from the foreign parents, appended to `leafCsets` |
| Topology.AddBranchTip | hggraph.py:451-456 | `_addBranchTip` has exactly the effect of its reference contribution: nothing unless the tip test passes, else one link to the synthetic tip and one tip entry |
| Topology.AddBranchingLinks | hggraph.py:458-471 | `_addBranchingLinks` has exactly the effect of its reference contribution: links to the foreign children, appended to `leafCsets` |
| Topology.LinkChildren | hggraph.py:470-472 | the final loop of `_addBranchingLinks` applies the branch-off contribution |
| Topology.ApplyCombine | hggraph.py:427-471 | applying two contributions in turn is applying their concatenation |
| Topology.ApplySingle | hggraph.py:409-437 | applying one edge and single writes is one link insertion and one keyed write or append |
| Topology.RunAllIsApply | hggraph.py:537-552 | running a loop of `buildChangeSets` visit by visit equals applying all its contributions at once |
| Topology.Pairs | hggraph.py:546-547 | the inner loop visits the group from index `from` on |
| Topology.GroupVisits | hggraph.py:545-552 | the nested loops visit exactly each group member at index `from` or later, with its branch |
| Topology.Attach | hggraph.py:537-552 | the four loops together equal applying their four contributions in order |
| Topology.GroupsNonEmpty | hggraph.py:537-543 | when the log is buildable, every group is non-empty |
| Topology.GroupsShape | hggraph.py:523-531 | `brs` is keyed by exactly the log's branches, and each group is sorted and holds exactly the log's kept changesets of its branch |
| Topology.BuildChangeSets | hggraph.py:505-552 | the branch set equals the keys of `brs`; keys are in increasing order; every group is non-empty, sorted, and holds exactly the interesting changesets of its branch; the main branch is the first changeset's branch; links, tails, tips and leaves are those of the four loops |
| AttachTheorems.ContribAllMembers | hggraph.py:537-552 | what a loop contributes is exactly what its visits contribute |
| AttachTheorems.ContribAllEmptyParts | hggraph.py:537-552 | only the origin loop writes tails, only the tip loop writes tips, and neither writes leaves |
| AttachTheorems.AttachParts | hggraph.py:537-552 | the final `brLinks`, `tailCsets`, `tipCsets` and `leafCsets` come from the loops' edges, tails, tips and leaves |
| AttachTheorems.AttachContributionParts | hggraph.py:537-552 | the combined contribution's tails, tips and leaves are those of the origin, tip, and merge and branch-off loops |
| AttachTheorems.CombineFour | hggraph.py:537-552 | combining four contributions that each write one part keeps each part |
| AttachTheorems.AttachLinksFirstWins | hggraph.py:537-552 | `brLinks` holds one link per offered key, the first one offered by any of the four loops in order |
| AttachTheorems.OriginLinkSurvives | hggraph.py:538-539 | a link offered by the origin loop is never displaced, so it keeps kind "BR" |
| AttachTheorems.OriginTailsMembers | hggraph.py:538-539 | the origin loop writes exactly the foreign parents of each branch's first changeset |
| AttachTheorems.OriginEdgeOffered | hggraph.py:427-437 | the origin loop offers a "BR" link from each such parent to the first changeset |
| AttachTheorems.AttachTails | hggraph.py:427-437 | `tailCsets` holds exactly the foreign parents of each branch's first changeset, each under its revision; the key `p.rev + l.rev` is in `brLinks` and its entry has kind "BR" |
| AttachTheorems.TipMembers | hggraph.py:542-543 | the tip loop writes exactly one synthetic tip per branch whose last changeset passes the tip test |
| AttachTheorems.TipEdgeOffered | hggraph.py:451-456 | the tip loop offers the "H" link from each such last changeset to its tip |
| AttachTheorems.TipEdgesAreH | hggraph.py:451-456 | every link the tip loop offers has kind "H" |
| AttachTheorems.AttachTips | hggraph.py:451-456 | `tipCsets` holds, under revision `l.rev + "Tip"` and branch "Tip", exactly the tips of branches whose last changeset `l` passes the tip test; the key `l.rev + l.rev + "Tip"` is in `brLinks` |
| AttachTheorems.TipLinkKind | hggraph.py:451-456 | the entry under a tip's key has kind "H" unless the origin loop offered a link under the same key |
| AttachTheorems.FirstUnderTipKey | hggraph.py:537-552 | a key offered by the tip loop and not by the origin loop is first offered with kind "H" |
| AttachTheorems.TipRevInjective | hggraph.py:454 | distinct changesets get distinct tip revisions |
| AttachTheorems.NoTipWithoutTipTest | hggraph.py:452-453 | a branch whose last changeset fails the tip test gets no tip, when no other branch ends on the same revision |
| AttachTheorems.AttachEdgePresent | hggraph.py:409-417 | every link the merge and branch-off loops offer has its key in `brLinks` |
| AttachTheorems.MergeLeavesMembers | hggraph.py:545-547 | the merge loop writes exactly the foreign parents of each group member at index 1 or later |
| AttachTheorems.BranchOffLeavesMembers | hggraph.py:549-552 | the branch-off loop writes exactly the foreign children of each group member |
| AttachTheorems.MergeEdgeOffered | hggraph.py:439-449 | the merge loop offers an "M" link from each foreign parent of a member at index 1 or later to that member |
| AttachTheorems.MergeLinkPresent | hggraph.py:439-449 | for a foreign parent `p` of a later member `l`, the key `p.rev + l.rev` is in `brLinks` |
| AttachTheorems.BranchOffEdgeOffered | hggraph.py:458-471 | the branch-off loop offers a "BR" link from each member to each of its foreign children |
| AttachTheorems.BranchOffLinkPresent | hggraph.py:458-471 | for each foreign child `c` of a member `l`, the key `l.rev + c.rev` is in `brLinks` |
| AttachTheorems.AttachLeaves | hggraph.py:439-471 | `leafCsets` holds exactly the foreign parents of members at index 1 or later and the foreign children of all members, and the key of each such link is in `brLinks` |
| Render.NextColor | hggraph.py:589-601 | `_getNextColor` keeps its counter between 1 and the palette size, and from an in-range counter returns `colors[cur mod n]` |
| Render.Draw | hggraph.py:589-601 | `k` calls return `k` colours, all from the palette |
| Render.DrawRoundRobin | hggraph.py:589-601 | the `i`-th of `k` calls from counter `cur` returns `colors[(cur + i) mod n]`; from a fresh renderer, the `k`-th call returns `colors[k mod n]` |
| Render.NodeName | hggraph.py:146-147 | a node name is `r` followed by the revision, from which the revision can be read back |
| Render.NodeNameInjective | hggraph.py:146-147 | distinct revisions give distinct node names |
| Render.NodeLabel | hggraph.py:195-210 | a tagged changeset or a leaf shows tag name, date and revision; otherwise a tip shows "tip", a tail shows name and revision, and a member shows date and revision; the tag or branch name shown is the one passed in, every label but "tip" carries the revision, and the date is the first space-separated field of the changeset's date |
| Render.TailNode | hggraph.py:634-640 | a tail node is named after its revision, takes the tail look, and shows the short branch name and revision; when tagged it shows the short branch name, the first field of its date and its revision |
| Render.TipNode | hggraph.py:642-646 | a tip node is named after its revision, takes the tip look, and shows "tip" exactly when it carries no tags |
| Render.MemberNode | hggraph.py:648-661 | a member node is named after its revision; it takes the tag look and the short tag name exactly when tagged, and otherwise the member look with date and revision; the date shown is the first space-separated field of the changeset's date |
| Render.LeafNode | hggraph.py:663-669 | a leaf node is named after its revision, takes the leaf look, and always shows the short branch name, the first field of its date, and its revision |
| Render.Members | hggraph.py:648-649 | the third node loop visits exactly the members of every group |
| Render.TailAndTipNodes | hggraph.py:634-646 | the first two node loops create one node per tail and tip revision, a tip replacing a tail of the same revision |
| Render.GenerateNodes | hggraph.py:627-675 | `_generateNodes` holds one node per distinct revision among tails, tips, group members and leaves, and each is named after its revision |
| Render.NamedByKey | hggraph.py:636-669 | writing nodes by revision keeps every node named after its key |
| Render.LeafNodesWin | hggraph.py:663-669 | a revision among the leaves shows its last leaf |
| Render.NodesBeforeLeaves | hggraph.py:663-669 | a revision no leaf carries keeps what the first three loops wrote |
| Render.MemberNodesWin | hggraph.py:648-661 | a revision among the members, and not among the leaves, shows its last member |
| Render.TipAndTailNodes | hggraph.py:634-646 | a revision in neither members nor leaves shows its tip if it has one, and otherwise its tail |
| Render.TipLabelOnlyForTips | hggraph.py:642-646 | the "tip" label appears exactly on a tip revision that no member or leaf rewrote and whose tip record carries no tags |
| Render.LinkBetweenInjective | hggraph.py:141-143 | a drawn link determines the revisions of both ends and its label |
| Render.LinkBetween | hggraph.py:141-143 | a link runs from `r` plus the start revision to `r` plus the end revision, with the given label |
| Render.Spine | hggraph.py:699-702 | a group of `n` changesets gets a spine of `n - 1` links, the `i`-th from member `i` to member `i + 1`, all labelled with the short branch name |
| Render.SpineIsPath | hggraph.py:699-702 | the spine is one path from the first member to the last |
| Render.Replace | hggraph.py:688-689 | `str.replace` of a character changes exactly the occurrences of that character |
| Render.Sanitize | hggraph.py:688-689 | the subgraph name keeps the branch's length, turns every `.` and `-` into `_`, and keeps every other character |
| Render.SanitizeIdempotent | hggraph.py:688-689 | sanitizing an already sanitized name changes nothing |
| Render.BranchSubgraph | hggraph.py:684-704 | a branch's subgraph is titled with the branch and coloured with the drawn colour; its name is `cluster_` when clustering, followed by the sanitized branch, so it has no `.` or `-`; it lists each member's node name in order, and its `i`-th spine link joins member `i` to member `i + 1` under the short branch name |
| Render.InsertBySize | hggraph.py:721-722 | inserting a key into a list ordered by non-increasing group size keeps that order and adds exactly that key |
| Render.InsertBySizePermutes | hggraph.py:721-722 | that insertion adds exactly one occurrence of the key |
| Render.SortBySize | hggraph.py:721-722 | the sort by group size, largest first, is a permutation of the keys with non-increasing group sizes |
| Render.ArrangeBranches | hggraph.py:716-724 | `_arrangeBranches` returns a permutation of the branch keys: the keys themselves without arranging, and in non-increasing group size with arranging |
| Render.CrossLinks | hggraph.py:706-710 | every entry of `brLinks` draws a dashed link from start to end labelled with its kind, no other link is drawn, and when entries are filed under their own ends there are exactly as many links as entries |
| Render.DashedCard | hggraph.py:706-710 | entries filed under their own ends draw pairwise distinct links, so the count of links equals the count of entries |
| Render.DashedSplit | hggraph.py:706-710 | the links of a map are those of the other entries plus the one entry, which is new when entries are filed under their own ends |
| Render.DashedDistinct | hggraph.py:706-710 | two entries filed under their own ends under different keys draw different links |
| Render.GenerateSubgraphs | hggraph.py:677-714 | the subgraphs follow `_arrangeBranches`, one per key, each rendering its own group; the `i`-th takes palette colour `(cur + i) mod n`, and the counter ends in range or untouched when there is no branch |
| Render.SubgraphOrder | hggraph.py:677-683 | the subgraph titles are a permutation of the keys: in key order without arranging, in non-increasing group size with arranging |
| Render.DumpGraph | hggraph.py:619-625 | `dumpGraph` draws exactly the node map of `_generateNodes`, the subgraphs of `_generateSubgraphs` in their order with their colours, and the dashed links of `brLinks`; so one node per revision among tails, tips, members and leaves, each named after its revision, one subgraph per branch key, and one dashed link per entry when entries are filed under their own ends |
| Render.BuiltTopologyRenders | hggraph.py:427-456 | a topology built by `buildChangeSets` meets the renderer's needs: tails and tips are filed under their own revisions, links under their own ends, and every key has a group |

## Left out

- Running `hg` and reading log files (`HgCommand`, `CSetSource`,
  hggraph.py:252-372) are I/O. The log is a sequence of records, and
  `getCSetFromRepo` is the abstract `Source` function.
- The regular-expression line filter in `__next__` (hggraph.py:284-295,
  344-355) is left out. Regular expressions are outside the model.
- `_extractReValue` (hggraph.py:603-617) also depends on regular
  expressions. It appears as the uninterpreted `Config.shortBranch` and
  `Config.shortTag`.
- Parsing JSON into named tuples (hggraph.py:305, 368, 519) is library
  code. Records arrive already parsed as `CSet`.
- ChangeSets.SearchOrGet: the write-back into the cache that
  `getCSetFromRepo` performs (hggraph.py:307) is not modelled, so lookup is
  a pure function of the cache and the source. This is exact only for a
  source that answers a revision with the record of that revision
  (`ChangeSets.SelfFiled`). `getCSetFromRepo` is such a source: it runs
  `hg log -r X`, or picks the log line holding `"rev":"X"`.
  `ChangeSets.WriteBackUnobservable` proves that for such a source the
  write-back changes no later lookup. A source that answered with another
  revision would overwrite the cache under that revision, and the model
  would then differ from the program.
- DOT text is left out: the template, the `format` calls and the
  escaping (hggraph.py:196-210, 565-574, 619-625, 688-712). The model keeps
  its structure: nodes, labels, looks, subgraphs and links. Shapes, styles
  and colour attributes are reduced to the `Look` that selects them.
- `Render.GenerateNodes`: does not model the order in which nodes are
  emitted. The node map is a map, not an insertion-ordered dict.
- `Render.CrossLinks`: does not model the order of the cross-branch links.
  They form a set. Entries filed under their own ends give distinct links
  (`Render.DashedCard`).
- `Grouping.SortByRev`: does not state that changesets with equal
  revisions keep their log order, as Python's stable `sorted` does. The
  insertion places earlier changesets first among equals, but no lemma
  proves stability. It matters only for a log that repeats a revision.
- `Render.ArrangeBranches`: does not state that keys with equal group sizes
  keep their order. The sort places earlier keys first among equals, but no
  lemma proves stability.
- `searchCSet` by an attribute other than the revision is not modelled. It
  iterates `allCsets.items` without calling it, so it always fails
  (hggraph.py:103).
- The unused `Utils.getBranchChildren` and `Utils.getBranchParent`
  (hggraph.py:150-173) are not modelled.
- `CSetDebug`, `main`, `runIt` and YAML configuration (hggraph.py:216-246,
  744-872) are left out. They are printing and start-up code.
- `jenkins_tools.py` is not part of this model. It is a Jenkins REST
  client with its configuration lookup, unrelated to the graph.
- `AttachTheorems.OriginLinkSurvives`: only origin links are proved to keep
  their kind unconditionally. A later link can be displaced by an earlier
  link under the same key, and `AttachTheorems.AttachLinksFirstWins` states
  which one wins.
- `AttachTheorems.AttachTips`: states only that the key of the link from a
  branch's last changeset to its tip is in `brLinks`. The entry under that
  key has kind "H" only when no origin link shares the key; under that
  hypothesis `AttachTheorems.TipLinkKind` proves it.
- `AttachTheorems.MergeLinkPresent`, `AttachTheorems.BranchOffLinkPresent`
  and `AttachTheorems.AttachLeaves`: state only that the link's key is in
  `brLinks`. Under a key collision the entry can be an earlier, different
  link.

=== FILE: attach_theorems.dfy ===
/** What the four attachment loops of `buildChangeSets` (hggraph.py lines
    537-552) leave in `brLinks`, `tailCsets`, `tipCsets` and `leafCsets`. */
module AttachTheorems {
  import opened Wrappers
  import opened ChangeSets
  import opened Classify
  import opened Topology

  /** What a loop contributes is what its visits contribute. */
  lemma {:induction false} ContribAllMembers(env: Env, step: Step, vs: seq<Visit>)
    ensures forall e :: e in ContribAll(env, step, vs).edges <==> exists v :: v in vs && e in Contrib(env, step, v).edges
    ensures forall c :: c in ContribAll(env, step, vs).tails <==> exists v :: v in vs && c in Contrib(env, step, v).tails
    ensures forall c :: c in ContribAll(env, step, vs).tips <==> exists v :: v in vs && c in Contrib(env, step, v).tips
    ensures forall c :: c in ContribAll(env, step, vs).leaves <==> exists v :: v in vs && c in Contrib(env, step, v).leaves
    decreases |vs|
  {
    if |vs| > 0 {
      ContribAllMembers(env, step, vs[1..]);
      assert forall v :: v in vs <==> v == vs[0] || v in vs[1..];
    }
  }

  /** One changeset's membership in what a loop writes to each list. */
  lemma ContribAllTail(env: Env, step: Step, vs: seq<Visit>, x: CSet)
    ensures x in ContribAll(env, step, vs).tails <==> exists v :: v in vs && x in Contrib(env, step, v).tails
  {
    ContribAllMembers(env, step, vs);
  }

  lemma ContribAllTip(env: Env, step: Step, vs: seq<Visit>, x: CSet)
    ensures x in ContribAll(env, step, vs).tips <==> exists v :: v in vs && x in Contrib(env, step, v).tips
  {
    ContribAllMembers(env, step, vs);
  }

  lemma ContribAllLeaf(env: Env, step: Step, vs: seq<Visit>, x: CSet)
    ensures x in ContribAll(env, step, vs).leaves <==> exists v :: v in vs && x in Contrib(env, step, v).leaves
  {
    ContribAllMembers(env, step, vs);
  }

  lemma ContribAllEdge(env: Env, step: Step, vs: seq<Visit>, e: Edge)
    ensures e in ContribAll(env, step, vs).edges <==> exists v :: v in vs && e in Contrib(env, step, v).edges
  {
    ContribAllMembers(env, step, vs);
  }

  /** Only the origin loop writes tails, only the tip loop writes tips, and
      neither of them writes leaves. */
  lemma {:induction false} ContribAllEmptyParts(env: Env, step: Step, vs: seq<Visit>)
    ensures step != AttachOrigin ==> ContribAll(env, step, vs).tails == []
    ensures step != AttachTip ==> ContribAll(env, step, vs).tips == []
    ensures step == AttachOrigin || step == AttachTip ==> ContribAll(env, step, vs).leaves == []
    decreases |vs|
  {
    if |vs| > 0 {
      ContribAllEmptyParts(env, step, vs[1..]);
    }
  }

  function OriginEdges(env: Env, keys: seq<string>, brs: map<string, seq<CSet>>): seq<Edge>
    requires NonEmptyGroups(keys, brs)
  {
    ContribAll(env, AttachOrigin, FirstVisits(keys, brs)).edges
  }

  /** The final state in terms of the four loops' contributions. */
  lemma AttachParts(env: Env, keys: seq<string>, brs: map<string, seq<CSet>>)
    requires NonEmptyGroups(keys, brs)
    ensures var st := Attach(env, keys, brs);
      && st.links == InsertAll(map[], AttachContribution(env, keys, brs).edges)
      && st.tails == Record(map[], ContribAll(env, AttachOrigin, FirstVisits(keys, brs)).tails, Self)
      && st.tips == Record(map[], ContribAll(env, AttachTip, LastVisits(keys, brs)).tips, Self)
      && st.leaves == ContribAll(env, AttachMerge, GroupVisits(keys, brs, 1)).leaves
                      + ContribAll(env, AttachBranchOff, GroupVisits(keys, brs, 0)).leaves
  {
    var c := AttachContribution(env, keys, brs);
    AttachContributionParts(env, keys, brs);
    assert Apply(Fresh, c).tails == Record(map[], c.tails, Self);
    assert Apply(Fresh, c).leaves == [] + c.leaves;
    assert [] + c.leaves == c.leaves;
  }

  lemma AttachContributionParts(env: Env, keys: seq<string>, brs: map<string, seq<CSet>>)
    requires NonEmptyGroups(keys, brs)
    ensures var c := AttachContribution(env, keys, brs);
      && c.tails == ContribAll(env, AttachOrigin, FirstVisits(keys, brs)).tails
      && c.tips == ContribAll(env, AttachTip, LastVisits(keys, brs)).tips
      && c.leaves == ContribAll(env, AttachMerge, GroupVisits(keys, brs, 1)).leaves
                     + ContribAll(env, AttachBranchOff, GroupVisits(keys, brs, 0)).leaves
  {
    var c1 := ContribAll(env, AttachOrigin, FirstVisits(keys, brs));
    var c2 := ContribAll(env, AttachTip, LastVisits(keys, brs));
    var c3 := ContribAll(env, AttachMerge, GroupVisits(keys, brs, 1));
    var c4 := ContribAll(env, AttachBranchOff, GroupVisits(keys, brs, 0));
    ContribAllEmptyParts(env, AttachOrigin, FirstVisits(keys, brs));
    ContribAllEmptyParts(env, AttachTip, LastVisits(keys, brs));
    ContribAllEmptyParts(env, AttachMerge, GroupVisits(keys, brs, 1));
    ContribAllEmptyParts(env, AttachBranchOff, GroupVisits(keys, brs, 0));
    CombineFour(c1, c2, c3, c4);
  }

  lemma CombineFour(c1: Contribution, c2: Contribution, c3: Contribution, c4: Contribution)
    requires c2.tails == c3.tails == c4.tails == []
    requires c1.tips == c3.tips == c4.tips == []
    requires c1.leaves == c2.leaves == []
    ensures var c := Combine(Combine(Combine(c1, c2), c3), c4);
      c.tails == c1.tails && c.tips == c2.tips && c.leaves == c3.leaves + c4.leaves
  {
    assert c1.tails + [] == c1.tails;
    assert [] + c2.tips == c2.tips;
    assert c2.tips + [] == c2.tips;
    assert [] + [] + c3.leaves == c3.leaves;
  }

  /** Deduplication: `brLinks` holds one link per key offered by any of the
      four loops, and it is the first link offered under that key. */
  lemma AttachLinksFirstWins(env: Env, keys: seq<string>, brs: map<string, seq<CSet>>)
    requires NonEmptyGroups(keys, brs)
    ensures var st := Attach(env, keys, brs); var es := AttachContribution(env, keys, brs).edges;
      st.links.Keys == KeysOf(es) && forall k :: k in st.links ==> st.links[k] == FirstWithKey(es, k)
  {
    AttachParts(env, keys, brs);
    InsertAllFirstWins(map[], AttachContribution(env, keys, brs).edges);
  }

  /** A link offered by the origin loop is never displaced by a later loop,
      so it keeps the kind that loop gave it. */
  lemma OriginLinkSurvives(env: Env, keys: seq<string>, brs: map<string, seq<CSet>>, e: Edge)
    requires NonEmptyGroups(keys, brs)
    requires e in OriginEdges(env, keys, brs)
    ensures var st := Attach(env, keys, brs);
      EdgeKey(e) in st.links && st.links[EdgeKey(e)] == FirstWithKey(OriginEdges(env, keys, brs), EdgeKey(e))
      && st.links[EdgeKey(e)].kind == BR
  {
    var o := OriginEdges(env, keys, brs);
    var t := ContribAll(env, AttachTip, LastVisits(keys, brs)).edges;
    var m := ContribAll(env, AttachMerge, GroupVisits(keys, brs, 1)).edges;
    var b := ContribAll(env, AttachBranchOff, GroupVisits(keys, brs, 0)).edges;
    var k := EdgeKey(e);
    assert k in KeysOf(o);
    FirstWithKeyOfPrefix(o, t, k);
    FirstWithKeyOfPrefix(o + t, m, k);
    FirstWithKeyOfPrefix(o + t + m, b, k);
    assert AttachContribution(env, keys, brs).edges == o + t + m + b;
    AttachLinksFirstWins(env, keys, brs);
    ContribAllMembers(env, AttachOrigin, FirstVisits(keys, brs));
  }

  /** The visit of group member `j` of branch `keys[i]`. */
  lemma VisitIn(keys: seq<string>, brs: map<string, seq<CSet>>, from: nat, i: int, j: int)
    requires forall k :: k in keys ==> k in brs
    requires 0 <= i < |keys| && from <= j < |brs[keys[i]]|
    ensures (keys[i], brs[keys[i]][j]) in GroupVisits(keys, brs, from)
  {
  }

  /** The changesets the origin loop writes to `tailCsets`. */
  lemma OriginTailsMembers(env: Env, keys: seq<string>, brs: map<string, seq<CSet>>)
    requires NonEmptyGroups(keys, brs)
    ensures forall p :: p in ContribAll(env, AttachOrigin, FirstVisits(keys, brs)).tails <==>
      exists i :: 0 <= i < |keys| && p in ForeignParents(env, keys[i], brs[keys[i]][0])
  {
    forall p | p in ContribAll(env, AttachOrigin, FirstVisits(keys, brs)).tails
      ensures exists i :: 0 <= i < |keys| && p in ForeignParents(env, keys[i], brs[keys[i]][0])
    {
      OriginTailFrom(env, keys, brs, p);
    }
    forall i, p | 0 <= i < |keys| && p in ForeignParents(env, keys[i], brs[keys[i]][0])
      ensures p in ContribAll(env, AttachOrigin, FirstVisits(keys, brs)).tails
    {
      OriginTailTo(env, keys, brs, i, p);
    }
  }

  lemma OriginTailFrom(env: Env, keys: seq<string>, brs: map<string, seq<CSet>>, p: CSet)
    requires NonEmptyGroups(keys, brs)
    requires p in ContribAll(env, AttachOrigin, FirstVisits(keys, brs)).tails
    ensures exists i :: 0 <= i < |keys| && p in ForeignParents(env, keys[i], brs[keys[i]][0])
  {
    var fv := FirstVisits(keys, brs);
    ContribAllTail(env, AttachOrigin, fv, p);
    var v :| v in fv && p in Contrib(env, AttachOrigin, v).tails;
    var i :| 0 <= i < |fv| && fv[i] == v;
    assert p in ForeignParents(env, keys[i], brs[keys[i]][0]);
  }

  lemma OriginTailTo(env: Env, keys: seq<string>, brs: map<string, seq<CSet>>, i: int, p: CSet)
    requires NonEmptyGroups(keys, brs) && 0 <= i < |keys|
    requires p in ForeignParents(env, keys[i], brs[keys[i]][0])
    ensures p in ContribAll(env, AttachOrigin, FirstVisits(keys, brs)).tails
  {
    var fv := FirstVisits(keys, brs);
    assert fv[i] in fv;
    assert p in Contrib(env, AttachOrigin, fv[i]).tails by {
      assert Contrib(env, AttachOrigin, fv[i]) == OriginContribution(env, keys[i], brs[keys[i]][0], BR);
    }
    ContribAllTail(env, AttachOrigin, fv, p);
  }

  /** The origin loop offers `p -> l` for each foreign parent `p` of a
      branch's first changeset `l`. */
  lemma OriginEdgeOffered(env: Env, keys: seq<string>, brs: map<string, seq<CSet>>, i: int, p: CSet)
    requires NonEmptyGroups(keys, brs) && 0 <= i < |keys|
    requires p in ForeignParents(env, keys[i], brs[keys[i]][0])
    ensures Edge(p, brs[keys[i]][0], BR) in OriginEdges(env, keys, brs)
  {
    var fv := FirstVisits(keys, brs);
    var l := brs[keys[i]][0];
    var ps := ForeignParents(env, keys[i], l);
    var n :| 0 <= n < |ps| && ps[n] == p;
    assert Contrib(env, AttachOrigin, fv[i]).edges[n] == Edge(p, l, BR);
    assert fv[i] in fv;
    ContribAllEdge(env, AttachOrigin, fv, Edge(p, l, BR));
  }

  /** Branch origins: `tailCsets` holds exactly the parents, foreign to the
      branch, of each branch's first interesting changeset, each under its
      own revision; each is linked to that changeset by a "BR" link. */
  lemma AttachTails(env: Env, keys: seq<string>, brs: map<string, seq<CSet>>)
    requires NonEmptyGroups(keys, brs)
    ensures var st := Attach(env, keys, brs);
      forall k :: k in st.tails ==>
        && st.tails[k].rev == k
        && exists i :: 0 <= i < |keys| && st.tails[k] in ForeignParents(env, keys[i], brs[keys[i]][0])
    ensures var st := Attach(env, keys, brs);
      forall i, p :: 0 <= i < |keys| && p in ForeignParents(env, keys[i], brs[keys[i]][0]) ==>
        p.rev in st.tails && LinkKey(p, brs[keys[i]][0]) in st.links
        && st.links[LinkKey(p, brs[keys[i]][0])].kind == BR
  {
    var st := Attach(env, keys, brs);
    var ts := ContribAll(env, AttachOrigin, FirstVisits(keys, brs)).tails;
    AttachParts(env, keys, brs);
    assert st.tails == Record(map[], ts, Self);
    OriginTailsMembers(env, keys, brs);
    RecordSelfValues(map[], ts);
    RecordKeys(map[], ts, Self);
    forall i, p | 0 <= i < |keys| && p in ForeignParents(env, keys[i], brs[keys[i]][0])
      ensures p.rev in st.tails && LinkKey(p, brs[keys[i]][0]) in st.links
        && st.links[LinkKey(p, brs[keys[i]][0])].kind == BR
    {
      assert p in ts;
      OriginEdgeOffered(env, keys, brs, i, p);
      OriginLinkSurvives(env, keys, brs, Edge(p, brs[keys[i]][0], BR));
    }
  }

  /** The synthetic tips the tip loop writes to `tipCsets`. */
  lemma TipMembers(env: Env, keys: seq<string>, brs: map<string, seq<CSet>>)
    requires NonEmptyGroups(keys, brs)
    ensures forall t :: t in ContribAll(env, AttachTip, LastVisits(keys, brs)).tips <==>
      exists i :: 0 <= i < |keys| && IsTip(env, brs[keys[i]][|brs[keys[i]]| - 1])
        && t == TipOf(brs[keys[i]][|brs[keys[i]]| - 1])
  {
    forall t | t in ContribAll(env, AttachTip, LastVisits(keys, brs)).tips
      ensures exists i :: 0 <= i < |keys| && TipAt(env, keys, brs, i, t)
    {
      TipFrom(env, keys, brs, t);
    }
    forall i | 0 <= i < |keys| && IsTip(env, brs[keys[i]][|brs[keys[i]]| - 1])
      ensures TipOf(brs[keys[i]][|brs[keys[i]]| - 1]) in ContribAll(env, AttachTip, LastVisits(keys, brs)).tips
    {
      TipTo(env, keys, brs, i);
    }
  }

  /** Branch `keys[i]`'s last changeset passes the tip test and `t` is its tip. */
  ghost predicate TipAt(env: Env, keys: seq<string>, brs: map<string, seq<CSet>>, i: int, t: CSet)
    requires NonEmptyGroups(keys, brs) && 0 <= i < |keys|
  {
    IsTip(env, brs[keys[i]][|brs[keys[i]]| - 1]) && t == TipOf(brs[keys[i]][|brs[keys[i]]| - 1])
  }

  lemma TipFrom(env: Env, keys: seq<string>, brs: map<string, seq<CSet>>, t: CSet)
    requires NonEmptyGroups(keys, brs)
    requires t in ContribAll(env, AttachTip, LastVisits(keys, brs)).tips
    ensures exists i :: 0 <= i < |keys| && TipAt(env, keys, brs, i, t)
  {
    var lv := LastVisits(keys, brs);
    ContribAllTip(env, AttachTip, lv, t);
    var v :| v in lv && t in Contrib(env, AttachTip, v).tips;
    var i :| 0 <= i < |lv| && lv[i] == v;
    assert TipAt(env, keys, brs, i, t);
  }

  lemma TipTo(env: Env, keys: seq<string>, brs: map<string, seq<CSet>>, i: int)
    requires NonEmptyGroups(keys, brs) && 0 <= i < |keys|
    requires IsTip(env, brs[keys[i]][|brs[keys[i]]| - 1])
    ensures TipOf(brs[keys[i]][|brs[keys[i]]| - 1]) in ContribAll(env, AttachTip, LastVisits(keys, brs)).tips
  {
    var lv := LastVisits(keys, brs);
    var t := TipOf(brs[keys[i]][|brs[keys[i]]| - 1]);
    assert lv[i] in lv;
    assert t in Contrib(env, AttachTip, lv[i]).tips;
    ContribAllTip(env, AttachTip, lv, t);
  }

  /** The tip loop offers the "H" link from a branch's last changeset to
      its tip whenever that changeset passes the tip test. */
  lemma TipEdgeOffered(env: Env, keys: seq<string>, brs: map<string, seq<CSet>>, i: int)
    requires NonEmptyGroups(keys, brs) && 0 <= i < |keys|
    requires IsTip(env, brs[keys[i]][|brs[keys[i]]| - 1])
    ensures var l := brs[keys[i]][|brs[keys[i]]| - 1];
      Edge(l, TipOf(l), H) in ContribAll(env, AttachTip, LastVisits(keys, brs)).edges
  {
    var lv := LastVisits(keys, brs);
    var l := brs[keys[i]][|brs[keys[i]]| - 1];
    assert lv[i] in lv;
    assert Edge(l, TipOf(l), H) in Contrib(env, AttachTip, lv[i]).edges;
    ContribAllEdge(env, AttachTip, lv, Edge(l, TipOf(l), H));
  }

  /** Tips: `tipCsets` holds one synthetic tip, filed under its revision
      `l.rev + "Tip"` on branch "Tip", for each branch whose last
      interesting changeset passes the tip test, and no other; each such
      changeset is linked to its tip. */
  lemma AttachTips(env: Env, keys: seq<string>, brs: map<string, seq<CSet>>)
    requires NonEmptyGroups(keys, brs)
    ensures var st := Attach(env, keys, brs);
      forall k :: k in st.tips ==>
        && st.tips[k].rev == k
        && st.tips[k].branch == "Tip"
        && exists i :: 0 <= i < |keys| && IsTip(env, brs[keys[i]][|brs[keys[i]]| - 1])
             && st.tips[k] == TipOf(brs[keys[i]][|brs[keys[i]]| - 1])
    ensures var st := Attach(env, keys, brs);
      forall i :: 0 <= i < |keys| && IsTip(env, brs[keys[i]][|brs[keys[i]]| - 1]) ==>
        var l := brs[keys[i]][|brs[keys[i]]| - 1];
        TipOf(l).rev in st.tips && LinkKey(l, TipOf(l)) in st.links
  {
    var st := Attach(env, keys, brs);
    var c := AttachContribution(env, keys, brs);
    var ts := ContribAll(env, AttachTip, LastVisits(keys, brs)).tips;
    AttachParts(env, keys, brs);
    assert st.tips == Record(map[], ts, Self);
    TipMembers(env, keys, brs);
    RecordSelfValues(map[], ts);
    RecordKeys(map[], ts, Self);
    AttachLinksFirstWins(env, keys, brs);
    assert c.edges == ContribAll(env, AttachOrigin, FirstVisits(keys, brs)).edges
      + ContribAll(env, AttachTip, LastVisits(keys, brs)).edges
      + ContribAll(env, AttachMerge, GroupVisits(keys, brs, 1)).edges
      + ContribAll(env, AttachBranchOff, GroupVisits(keys, brs, 0)).edges;
    forall i | 0 <= i < |keys| && IsTip(env, brs[keys[i]][|brs[keys[i]]| - 1])
      ensures var l := brs[keys[i]][|brs[keys[i]]| - 1];
        TipOf(l).rev in st.tips && LinkKey(l, TipOf(l)) in st.links
    {
      var l := brs[keys[i]][|brs[keys[i]]| - 1];
      assert TipOf(l) in ts;
      TipEdgeOffered(env, keys, brs, i);
      assert Edge(l, TipOf(l), H) in c.edges;
      assert EdgeKey(Edge(l, TipOf(l), H)) in KeysOf(c.edges);
    }
  }

  /** Every link the tip loop offers has kind "H". */
  lemma TipEdgesAreH(env: Env, keys: seq<string>, brs: map<string, seq<CSet>>, e: Edge)
    requires NonEmptyGroups(keys, brs)
    requires e in ContribAll(env, AttachTip, LastVisits(keys, brs)).edges
    ensures e.kind == H
  {
    var lv := LastVisits(keys, brs);
    ContribAllEdge(env, AttachTip, lv, e);
    var v :| v in lv && e in Contrib(env, AttachTip, v).edges;
    assert Contrib(env, AttachTip, v) == TipContribution(env, v.1, H);
  }

  /** The link from a branch's last changeset to its tip keeps kind "H"
      unless the origin loop already offered a link under the same key:
      the merge and branch-off loops come later and cannot displace it. */
  lemma TipLinkKind(env: Env, keys: seq<string>, brs: map<string, seq<CSet>>, i: int)
    requires NonEmptyGroups(keys, brs) && 0 <= i < |keys|
    requires IsTip(env, brs[keys[i]][|brs[keys[i]]| - 1])
    requires var l := brs[keys[i]][|brs[keys[i]]| - 1];
      LinkKey(l, TipOf(l)) !in KeysOf(OriginEdges(env, keys, brs))
    ensures var l := brs[keys[i]][|brs[keys[i]]| - 1];
      var st := Attach(env, keys, brs);
      LinkKey(l, TipOf(l)) in st.links && st.links[LinkKey(l, TipOf(l))].kind == H
  {
    var l := brs[keys[i]][|brs[keys[i]]| - 1];
    var k := LinkKey(l, TipOf(l));
    assert k in KeysOf(ContribAll(env, AttachTip, LastVisits(keys, brs)).edges) by {
      TipEdgeOffered(env, keys, brs, i);
      assert k == EdgeKey(Edge(l, TipOf(l), H));
    }
    FirstUnderTipKey(env, keys, brs, k);
    AttachLinksFirstWins(env, keys, brs);
  }

  /** A key the origin loop does not offer but the tip loop does is first
      offered by the tip loop. */
  lemma FirstUnderTipKey(env: Env, keys: seq<string>, brs: map<string, seq<CSet>>, k: string)
    requires NonEmptyGroups(keys, brs)
    requires k !in KeysOf(OriginEdges(env, keys, brs))
    requires k in KeysOf(ContribAll(env, AttachTip, LastVisits(keys, brs)).edges)
    ensures var es := AttachContribution(env, keys, brs).edges;
      k in KeysOf(es) && FirstWithKey(es, k).kind == H
  {
    var o := OriginEdges(env, keys, brs);
    var t := ContribAll(env, AttachTip, LastVisits(keys, brs)).edges;
    var m := ContribAll(env, AttachMerge, GroupVisits(keys, brs, 1)).edges;
    var b := ContribAll(env, AttachBranchOff, GroupVisits(keys, brs, 0)).edges;
    var es := AttachContribution(env, keys, brs).edges;
    assert es == o + t + m + b;
    FirstWithKeyInSecond(o, t, m, b, k);
    TipEdgesAreH(env, keys, brs, FirstWithKey(t, k));
  }

  lemma TipRevInjective(a: string, b: string)
    requires a + "Tip" == b + "Tip"
    ensures a == b
  {
    assert a == (a + "Tip")[..|a|];
    assert b == (b + "Tip")[..|b|];
  }

  /** A branch whose last interesting changeset fails the tip test gets no
      synthetic tip, as long as no other branch ends on the same revision. */
  lemma NoTipWithoutTipTest(env: Env, keys: seq<string>, brs: map<string, seq<CSet>>, i: int)
    requires NonEmptyGroups(keys, brs) && 0 <= i < |keys|
    requires !IsTip(env, brs[keys[i]][|brs[keys[i]]| - 1])
    requires forall j :: 0 <= j < |keys| && j != i ==>
      brs[keys[j]][|brs[keys[j]]| - 1].rev != brs[keys[i]][|brs[keys[i]]| - 1].rev
    ensures TipOf(brs[keys[i]][|brs[keys[i]]| - 1]).rev !in Attach(env, keys, brs).tips
  {
    AttachTips(env, keys, brs);
  }

  /** Every key offered by a loop ends up in `brLinks`. */
  lemma AttachEdgePresent(env: Env, keys: seq<string>, brs: map<string, seq<CSet>>, e: Edge)
    requires NonEmptyGroups(keys, brs)
    requires || e in ContribAll(env, AttachMerge, GroupVisits(keys, brs, 1)).edges
             || e in ContribAll(env, AttachBranchOff, GroupVisits(keys, brs, 0)).edges
    ensures EdgeKey(e) in Attach(env, keys, brs).links
  {
    var es := AttachContribution(env, keys, brs).edges;
    assert es == ContribAll(env, AttachOrigin, FirstVisits(keys, brs)).edges
      + ContribAll(env, AttachTip, LastVisits(keys, brs)).edges
      + ContribAll(env, AttachMerge, GroupVisits(keys, brs, 1)).edges
      + ContribAll(env, AttachBranchOff, GroupVisits(keys, brs, 0)).edges;
    assert e in es;
    assert EdgeKey(e) in KeysOf(es);
    AttachLinksFirstWins(env, keys, brs);
  }

  /** What the merge loop writes to `leafCsets`: the foreign parents of
      every group member after the first. */
  lemma MergeLeavesMembers(env: Env, keys: seq<string>, brs: map<string, seq<CSet>>)
    requires NonEmptyGroups(keys, brs)
    ensures forall x :: x in ContribAll(env, AttachMerge, GroupVisits(keys, brs, 1)).leaves <==>
      exists i, j :: 0 <= i < |keys| && 1 <= j < |brs[keys[i]]| && x in ForeignParents(env, keys[i], brs[keys[i]][j])
  {
    forall x | x in ContribAll(env, AttachMerge, GroupVisits(keys, brs, 1)).leaves
      ensures exists i, j :: 0 <= i < |keys| && 1 <= j < |brs[keys[i]]| && x in ForeignParents(env, keys[i], brs[keys[i]][j])
    {
      MergeLeafFrom(env, keys, brs, x);
    }
    forall i, j, x | 0 <= i < |keys| && 1 <= j < |brs[keys[i]]| && x in ForeignParents(env, keys[i], brs[keys[i]][j])
      ensures x in ContribAll(env, AttachMerge, GroupVisits(keys, brs, 1)).leaves
    {
      MergeLeafTo(env, keys, brs, i, j, x);
    }
  }

  lemma MergeLeafFrom(env: Env, keys: seq<string>, brs: map<string, seq<CSet>>, x: CSet)
    requires NonEmptyGroups(keys, brs)
    requires x in ContribAll(env, AttachMerge, GroupVisits(keys, brs, 1)).leaves
    ensures exists i, j :: 0 <= i < |keys| && 1 <= j < |brs[keys[i]]| && x in ForeignParents(env, keys[i], brs[keys[i]][j])
  {
    var rv := GroupVisits(keys, brs, 1);
    ContribAllLeaf(env, AttachMerge, rv, x);
    var v :| v in rv && x in Contrib(env, AttachMerge, v).leaves;
    var i, j :| 0 <= i < |keys| && 1 <= j < |brs[keys[i]]| && v == (keys[i], brs[keys[i]][j]);
    assert x in ForeignParents(env, keys[i], brs[keys[i]][j]);
  }

  lemma MergeLeafTo(env: Env, keys: seq<string>, brs: map<string, seq<CSet>>, i: int, j: int, x: CSet)
    requires NonEmptyGroups(keys, brs) && 0 <= i < |keys| && 1 <= j < |brs[keys[i]]|
    requires x in ForeignParents(env, keys[i], brs[keys[i]][j])
    ensures x in ContribAll(env, AttachMerge, GroupVisits(keys, brs, 1)).leaves
  {
    var rv := GroupVisits(keys, brs, 1);
    var v := (keys[i], brs[keys[i]][j]);
    VisitIn(keys, brs, 1, i, j);
    assert x in Contrib(env, AttachMerge, v).leaves by {
      assert Contrib(env, AttachMerge, v) == MergeContribution(env, keys[i], brs[keys[i]][j], M);
    }
    ContribAllLeaf(env, AttachMerge, rv, x);
  }

  /** What the branch-off loop writes to `leafCsets`: the foreign children
      of every group member. */
  lemma BranchOffLeavesMembers(env: Env, keys: seq<string>, brs: map<string, seq<CSet>>)
    requires NonEmptyGroups(keys, brs)
    ensures forall x :: x in ContribAll(env, AttachBranchOff, GroupVisits(keys, brs, 0)).leaves <==>
      exists i, j :: 0 <= i < |keys| && 0 <= j < |brs[keys[i]]| && x in ForeignChildren(env, brs[keys[i]][j])
  {
    forall x | x in ContribAll(env, AttachBranchOff, GroupVisits(keys, brs, 0)).leaves
      ensures exists i, j :: 0 <= i < |keys| && 0 <= j < |brs[keys[i]]| && x in ForeignChildren(env, brs[keys[i]][j])
    {
      BranchOffLeafFrom(env, keys, brs, x);
    }
    forall i, j, x | 0 <= i < |keys| && 0 <= j < |brs[keys[i]]| && x in ForeignChildren(env, brs[keys[i]][j])
      ensures x in ContribAll(env, AttachBranchOff, GroupVisits(keys, brs, 0)).leaves
    {
      BranchOffLeafTo(env, keys, brs, i, j, x);
    }
  }

  lemma BranchOffLeafFrom(env: Env, keys: seq<string>, brs: map<string, seq<CSet>>, x: CSet)
    requires NonEmptyGroups(keys, brs)
    requires x in ContribAll(env, AttachBranchOff, GroupVisits(keys, brs, 0)).leaves
    ensures exists i, j :: 0 <= i < |keys| && 0 <= j < |brs[keys[i]]| && x in ForeignChildren(env, brs[keys[i]][j])
  {
    var av := GroupVisits(keys, brs, 0);
    ContribAllLeaf(env, AttachBranchOff, av, x);
    var v :| v in av && x in Contrib(env, AttachBranchOff, v).leaves;
    var i, j :| 0 <= i < |keys| && 0 <= j < |brs[keys[i]]| && v == (keys[i], brs[keys[i]][j]);
    assert x in ForeignChildren(env, brs[keys[i]][j]);
  }

  lemma BranchOffLeafTo(env: Env, keys: seq<string>, brs: map<string, seq<CSet>>, i: int, j: int, x: CSet)
    requires NonEmptyGroups(keys, brs) && 0 <= i < |keys| && 0 <= j < |brs[keys[i]]|
    requires x in ForeignChildren(env, brs[keys[i]][j])
    ensures x in ContribAll(env, AttachBranchOff, GroupVisits(keys, brs, 0)).leaves
  {
    var av := GroupVisits(keys, brs, 0);
    var v := (keys[i], brs[keys[i]][j]);
    VisitIn(keys, brs, 0, i, j);
    assert x in Contrib(env, AttachBranchOff, v).leaves by {
      assert Contrib(env, AttachBranchOff, v) == BranchOffContribution(env, brs[keys[i]][j], BR);
    }
    ContribAllLeaf(env, AttachBranchOff, av, x);
  }

  /** The merge loop offers `p -> l` for each foreign parent `p` of a
      group member `l` at index 1 or later. */
  lemma MergeEdgeOffered(env: Env, keys: seq<string>, brs: map<string, seq<CSet>>, i: int, j: int, p: CSet)
    requires NonEmptyGroups(keys, brs) && 0 <= i < |keys| && 1 <= j < |brs[keys[i]]|
    requires p in ForeignParents(env, keys[i], brs[keys[i]][j])
    ensures Edge(p, brs[keys[i]][j], M) in ContribAll(env, AttachMerge, GroupVisits(keys, brs, 1)).edges
  {
    var l := brs[keys[i]][j];
    var v := (keys[i], l);
    var rv := GroupVisits(keys, brs, 1);
    VisitIn(keys, brs, 1, i, j);
    var ps := ForeignParents(env, keys[i], l);
    var n :| 0 <= n < |ps| && ps[n] == p;
    assert Edge(p, l, M) in Contrib(env, AttachMerge, v).edges by {
      assert Contrib(env, AttachMerge, v) == MergeContribution(env, keys[i], l, M);
      assert MergeContribution(env, keys[i], l, M).edges == Into(ps, l, M);
      assert Into(ps, l, M)[n] == Edge(p, l, M);
    }
    ContribAllEdge(env, AttachMerge, rv, Edge(p, l, M));
  }

  /** A foreign parent of a later group member is linked to it. */
  lemma MergeLinkPresent(env: Env, keys: seq<string>, brs: map<string, seq<CSet>>, i: int, j: int, p: CSet)
    requires NonEmptyGroups(keys, brs) && 0 <= i < |keys| && 1 <= j < |brs[keys[i]]|
    requires p in ForeignParents(env, keys[i], brs[keys[i]][j])
    ensures LinkKey(p, brs[keys[i]][j]) in Attach(env, keys, brs).links
  {
    MergeEdgeOffered(env, keys, brs, i, j, p);
    AttachEdgePresent(env, keys, brs, Edge(p, brs[keys[i]][j], M));
  }

  /** The branch-off loop offers `l -> c` for each foreign child `c` of a
      group member `l`. */
  lemma BranchOffEdgeOffered(env: Env, keys: seq<string>, brs: map<string, seq<CSet>>, i: int, j: int, c: CSet)
    requires NonEmptyGroups(keys, brs) && 0 <= i < |keys| && 0 <= j < |brs[keys[i]]|
    requires c in ForeignChildren(env, brs[keys[i]][j])
    ensures Edge(brs[keys[i]][j], c, BR) in ContribAll(env, AttachBranchOff, GroupVisits(keys, brs, 0)).edges
  {
    var l := brs[keys[i]][j];
    var v := (keys[i], l);
    var av := GroupVisits(keys, brs, 0);
    VisitIn(keys, brs, 0, i, j);
    var cs := ForeignChildren(env, l);
    var n :| 0 <= n < |cs| && cs[n] == c;
    assert Edge(l, c, BR) in Contrib(env, AttachBranchOff, v).edges by {
      assert Contrib(env, AttachBranchOff, v) == BranchOffContribution(env, l, BR);
      assert BranchOffContribution(env, l, BR).edges == OutOf(l, cs, BR);
      assert OutOf(l, cs, BR)[n] == Edge(l, c, BR);
    }
    ContribAllEdge(env, AttachBranchOff, av, Edge(l, c, BR));
  }

  /** A group member is linked to each of its foreign children. */
  lemma BranchOffLinkPresent(env: Env, keys: seq<string>, brs: map<string, seq<CSet>>, i: int, j: int, c: CSet)
    requires NonEmptyGroups(keys, brs) && 0 <= i < |keys| && 0 <= j < |brs[keys[i]]|
    requires c in ForeignChildren(env, brs[keys[i]][j])
    ensures LinkKey(brs[keys[i]][j], c) in Attach(env, keys, brs).links
  {
    BranchOffEdgeOffered(env, keys, brs, i, j, c);
    AttachEdgePresent(env, keys, brs, Edge(brs[keys[i]][j], c, BR));
  }

  /** Leaves: `leafCsets` lists, with repetitions, the foreign parents of
      every group member after the first and the foreign children of every
      group member; each of them is linked to that member. */
  lemma AttachLeaves(env: Env, keys: seq<string>, brs: map<string, seq<CSet>>)
    requires NonEmptyGroups(keys, brs)
    ensures var st := Attach(env, keys, brs);
      forall x :: x in st.leaves <==>
        (exists i, j :: 0 <= i < |keys| && 1 <= j < |brs[keys[i]]| && x in ForeignParents(env, keys[i], brs[keys[i]][j]))
        || (exists i, j :: 0 <= i < |keys| && 0 <= j < |brs[keys[i]]| && x in ForeignChildren(env, brs[keys[i]][j]))
    ensures var st := Attach(env, keys, brs);
      forall i, j, p :: 0 <= i < |keys| && 1 <= j < |brs[keys[i]]| && p in ForeignParents(env, keys[i], brs[keys[i]][j]) ==>
        LinkKey(p, brs[keys[i]][j]) in st.links
    ensures var st := Attach(env, keys, brs);
      forall i, j, c :: 0 <= i < |keys| && 0 <= j < |brs[keys[i]]| && c in ForeignChildren(env, brs[keys[i]][j]) ==>
        LinkKey(brs[keys[i]][j], c) in st.links
  {
    AttachParts(env, keys, brs);
    MergeLeavesMembers(env, keys, brs);
    BranchOffLeavesMembers(env, keys, brs);
    forall i, j, p | 0 <= i < |keys| && 1 <= j < |brs[keys[i]]| && p in ForeignParents(env, keys[i], brs[keys[i]][j])
      ensures LinkKey(p, brs[keys[i]][j]) in Attach(env, keys, brs).links
    {
      MergeLinkPresent(env, keys, brs, i, j, p);
    }
    forall i, j, c | 0 <= i < |keys| && 0 <= j < |brs[keys[i]]| && c in ForeignChildren(env, brs[keys[i]][j])
      ensures LinkKey(brs[keys[i]][j], c) in Attach(env, keys, brs).links
    {
      BranchOffLinkPresent(env, keys, brs, i, j, c);
    }
  }
}

=== FILE: changesets.dfy ===
/** The changeset record, the revision-keyed cache `CSetCache`, the combined
    cache-then-source lookup `_searchOrGetCSet`, and the parsing helpers of
    `Utils` (hggraph.py lines 35-192). */
module ChangeSets {
  import opened Wrappers
  import opened Strings

  /** The parent revision Mercurial reports for "no parent". */
  const NoParentRev: string := "-1"

  /** One changeset as the log template prints it; every field is a string. */
  datatype CSet = CSet(
    branch: string,
    children: string,   // space-separated "rev:hash" tokens
    user: string,
    date: string,
    message: string,
    tags: string,       // space-separated; "" when untagged
    rev: string,
    node: string,
    p1node: string,
    p1rev: string,
    p2node: string,
    p2rev: string)

  /** The contents of `CSetCache.allCsets`. */
  type Store = map<string, CSet>

  /** On-demand lookup of a revision the cache does not hold (an `hg log -r`
      call or a scan of the exported file); `None` when it is unknown. */
  type Source = string -> Option<CSet>

  /** A map of changesets whose every entry is filed under its own
      revision, as the cache, `tailCsets` and `tipCsets` are. */
  ghost predicate FiledByRev(m: map<string, CSet>)
  {
    forall k :: k in m ==> m[k].rev == k
  }

  /** A source that answers a revision with a changeset of that revision,
      as `getCSetFromRepo` does with `hg log -r rev` or by picking the log
      line that carries `"rev":"rev"`. */
  ghost predicate SelfFiled(source: Source)
  {
    forall rev :: source(rev).Some? ==> source(rev).value.rev == rev
  }

  /** The set of revisions of a sequence of changesets. */
  function Revs(s: seq<CSet>): set<string>
  {
    set c | c in s :: c.rev
  }

  /** `i` is the last position of `s` holding revision `rev`. */
  ghost predicate LastAt(s: seq<CSet>, i: int, rev: string)
  {
    0 <= i < |s| && s[i].rev == rev && forall j :: i < j < |s| ==> s[j].rev != rev
  }

  /** Writes `f(c)` under `c.rev` for each `c` of `s` in order, as the Python
      loops `d[c.rev] = ...` do: a later changeset with the same revision
      overwrites an earlier one. */
  function Record<V>(m: map<string, V>, s: seq<CSet>, f: CSet -> V): map<string, V>
    decreases |s|
  {
    if |s| == 0 then m else Record(m[s[0].rev := f(s[0])], s[1..], f)
  }

  function Self(c: CSet): CSet { c }

  lemma {:induction false} RecordAppend<V>(m: map<string, V>, a: seq<CSet>, b: seq<CSet>, f: CSet -> V)
    ensures Record(m, a + b, f) == Record(Record(m, a, f), b, f)
    decreases |a|
  {
    if |a| > 0 {
      assert (a + b)[1..] == a[1..] + b;
      RecordAppend(m[a[0].rev := f(a[0])], a[1..], b, f);
    } else {
      assert a + b == b;
    }
  }

  lemma {:induction false} RecordKeys<V>(m: map<string, V>, s: seq<CSet>, f: CSet -> V)
    ensures Record(m, s, f).Keys == m.Keys + Revs(s)
    decreases |s|
  {
    if |s| > 0 {
      RecordKeys(m[s[0].rev := f(s[0])], s[1..], f);
      assert Revs(s) == {s[0].rev} + Revs(s[1..]) by {
        assert forall c :: c in s <==> c == s[0] || c in s[1..];
      }
    }
  }

  /** Last write wins: the entry for a revision comes from the last changeset
      of `s` carrying it, and revisions `s` never mentions keep their entry. */
  lemma {:induction false} RecordLastWins<V>(m: map<string, V>, s: seq<CSet>, f: CSet -> V)
    ensures Record(m, s, f).Keys == m.Keys + Revs(s)
    ensures forall k :: k in m && k !in Revs(s) ==> Record(m, s, f)[k] == m[k]
    ensures forall i :: 0 <= i < |s| && LastAt(s, i, s[i].rev) ==> Record(m, s, f)[s[i].rev] == f(s[i])
    decreases |s|
  {
    if |s| > 0 {
      var m' := m[s[0].rev := f(s[0])];
      RecordLastWins(m', s[1..], f);
      assert Revs(s) == {s[0].rev} + Revs(s[1..]) by {
        assert forall c :: c in s <==> c == s[0] || c in s[1..];
      }
      forall i | 0 <= i < |s| && LastAt(s, i, s[i].rev)
        ensures Record(m, s, f)[s[i].rev] == f(s[i])
      {
        if i > 0 {
          assert s[1..][i - 1] == s[i];
          assert LastAt(s[1..], i - 1, s[i].rev);
        } else {
          assert s[0].rev !in Revs(s[1..]) by {
            forall c | c in s[1..] ensures c.rev != s[0].rev {
              var j :| 0 <= j < |s[1..]| && s[1..][j] == c;
              assert s[j + 1] == c;
            }
          }
        }
      }
    }
  }

  /** Every revision of a log has a last occurrence in it. */
  lemma {:induction false} LastExists(s: seq<CSet>, k: string)
    requires k in Revs(s)
    ensures exists i :: LastAt(s, i, k)
    decreases |s|
  {
    if s[|s| - 1].rev == k {
      assert LastAt(s, |s| - 1, k);
    } else {
      var s' := s[..|s| - 1];
      var c :| c in s && c.rev == k;
      assert c in s';
      LastExists(s', k);
      var i :| LastAt(s', i, k);
      assert LastAt(s, i, k);
    }
  }

  /** Each entry of `Record(m, s, f)` is an untouched old entry, or `f` of
      the last changeset of `s` carrying its key. */
  lemma RecordValues<V>(m: map<string, V>, s: seq<CSet>, f: CSet -> V)
    ensures forall k :: k in Record(m, s, f) ==>
      (k in m && k !in Revs(s) && Record(m, s, f)[k] == m[k])
      || exists i :: LastAt(s, i, k) && Record(m, s, f)[k] == f(s[i])
  {
    RecordLastWins(m, s, f);
    forall k | k in Record(m, s, f) && k in Revs(s)
      ensures exists i :: LastAt(s, i, k) && Record(m, s, f)[k] == f(s[i])
    {
      LastExists(s, k);
      var i :| LastAt(s, i, k);
      assert s[i].rev == k;
    }
  }

  /** A map filled by `Record(_, s, Self)` files every changeset under its
      own revision: each entry is an old one or a changeset of `s`. */
  lemma {:induction false} RecordSelfValues(m: map<string, CSet>, s: seq<CSet>)
    ensures forall k :: k in Record(m, s, Self) ==>
      (k in m && Record(m, s, Self)[k] == m[k]) || (Record(m, s, Self)[k] in s && Record(m, s, Self)[k].rev == k)
    decreases |s|
  {
    if |s| > 0 {
      RecordSelfValues(m[s[0].rev := s[0]], s[1..]);
      assert forall c :: c in s[1..] ==> c in s;
    }
  }

  /** `CSetCache.searchCSet(value)` with the default `attr="rev"`. */
  function SearchCSet(store: Store, rev: string): (r: Option<CSet>)
    ensures r.Some? <==> rev in store
    ensures r.Some? && FiledByRev(store) ==> r.value.rev == rev
  {
    if rev in store then Some(store[rev]) else None
  }

  /** `CSetCache.hasRev`. */
  predicate HasRev(store: Store, rev: string): (r: bool)
    ensures r <==> rev in store
  {
    SearchCSet(store, rev) != None
  }

  /** `CSetCache.add`. Its guard asks `hasRev` about the builtin `set` rather
      than `cset.rev`; no revision string equals that object, so the guard
      never fires and a later add replaces an earlier one. */
  function Add(store: Store, c: CSet): (r: Store)
    ensures SearchCSet(r, c.rev) == Some(c)
    ensures forall k :: k != c.rev ==> SearchCSet(r, k) == SearchCSet(store, k)
    ensures HasRev(store, c.rev) ==> HasRev(r, c.rev) && r.Keys == store.Keys
  {
    store[c.rev := c]
  }

  /** Adding every changeset of a log, in order: the cache then holds every
      revision of it, each mapped to the last changeset of the log carrying
      that revision, and a cache filed by revision stays so. */
  function AddAll(store: Store, s: seq<CSet>): (r: Store)
    ensures r.Keys == store.Keys + Revs(s)
    ensures forall i :: 0 <= i < |s| && LastAt(s, i, s[i].rev) ==> SearchCSet(r, s[i].rev) == Some(s[i])
    ensures forall k :: k !in Revs(s) ==> SearchCSet(r, k) == SearchCSet(store, k)
    ensures FiledByRev(store) ==> FiledByRev(r)
  {
    RecordLastWins(store, s, Self);
    RecordSelfValues(store, s);
    Record(store, s, Self)
  }

  /** `HgGraph._searchOrGetCSet`: the sentinel resolves to nothing; otherwise
      the cache is asked first and the source second. */
  function SearchOrGet(store: Store, source: Source, rev: string): (r: Option<CSet>)
    ensures rev == NoParentRev ==> r == None
    ensures rev != NoParentRev && rev in store ==> r == SearchCSet(store, rev)
    ensures rev != NoParentRev && rev !in store ==> r == source(rev)
    ensures r.Some? && FiledByRev(store) && SelfFiled(source) ==> r.value.rev == rev
  {
    if rev == NoParentRev then None
    else if rev in store then Some(store[rev])
    else source(rev)
  }

  /** What the builder consults for a revision: the cache as it stands after
      ingestion, then the source. */
  datatype Env = Env(store: Store, source: Source) {
    function Resolve(rev: string): Option<CSet>
    {
      SearchOrGet(store, source, rev)
    }
  }

  /** The source's `getCSetFromRepo` also adds what it fetched to the cache.
      When the fetched record carries the revision asked for, that write-back
      changes no later lookup, which is why the model resolves through a pure
      function of the cache and the source. */
  lemma WriteBackUnobservable(store: Store, source: Source, rev: string, k: string)
    requires rev != NoParentRev && rev !in store
    requires source(rev).Some? && SelfFiled(source)
    ensures SearchOrGet(Add(store, source(rev).value), source, k) == SearchOrGet(store, source, k)
  {
    var c := source(rev).value;
    if k != NoParentRev && k != rev {
      assert SearchCSet(Add(store, c), k) == SearchCSet(store, k);
    }
  }

  /** The children tokens' revisions, as `_isBranch`, `_isTip` and
      `_addBranchingLinks` compute them: `[x.split(":")[0] for x in
      children.split(" ")]`, with no special case for an empty string. */
  function ChildTokens(c: CSet): (r: seq<string>)
    ensures |r| == |Split(c.children, ' ')| >= 1
    ensures forall i :: 0 <= i < |r| ==> r[i] == FirstField(Split(c.children, ' ')[i], ':')
    ensures forall i :: 0 <= i < |r| ==> ':' !in r[i] && ' ' !in r[i]
  {
    var parts := Split(c.children, ' ');
    seq(|parts|, i requires 0 <= i < |parts| => FirstField(parts[i], ':'))
  }

  /** With no children the unguarded token list is one empty revision. */
  lemma ChildTokensOfNoChildren(c: CSet)
    requires c.children == ""
    ensures ChildTokens(c) == [""]
  {
  }

  /** `Utils.getChildrenRevs`: no revisions for an empty children string,
      otherwise the revision part of every space-separated token, in order. */
  function GetChildrenRevs(c: CSet): (r: seq<string>)
    ensures c.children == "" ==> r == []
    ensures c.children != "" ==> |r| == |Split(c.children, ' ')|
    ensures c.children != "" ==> forall i :: 0 <= i < |r| ==>
      r[i] == FirstField(Split(c.children, ' ')[i], ':')
    ensures c.children != "" ==> forall i :: 0 <= i < |r| ==>
      r[i] <= Split(c.children, ' ')[i] && ':' !in r[i] && ' ' !in r[i]
  {
    if c.children == "" then [] else ChildTokens(c)
  }

  /** One children token as the log template prints it, `rev:hash`. */
  function ChildToken(rev: string, hash: string): string
  {
    rev + [':'] + hash
  }

  /** The children field printed for revisions `revs` with hashes `hashes`. */
  function ChildrenField(revs: seq<string>, hashes: seq<string>): string
    requires |revs| == |hashes|
  {
    Join(seq(|revs|, i requires 0 <= i < |revs| => ChildToken(revs[i], hashes[i])), ' ')
  }

  /** Round trip: a children field printed from revisions and hashes parses
      back to exactly those revisions, including the empty list. */
  lemma ChildrenRevsRoundTrip(c: CSet, revs: seq<string>, hashes: seq<string>)
    requires |revs| == |hashes|
    requires forall i :: 0 <= i < |revs| ==> ' ' !in revs[i] && ':' !in revs[i] && ' ' !in hashes[i]
    requires c.children == ChildrenField(revs, hashes)
    ensures GetChildrenRevs(c) == revs
  {
    var toks := seq(|revs|, i requires 0 <= i < |revs| => ChildToken(revs[i], hashes[i]));
    if |revs| > 0 {
      forall i | 0 <= i < |toks| ensures ' ' !in toks[i] {
        assert toks[i] == revs[i] + [':'] + hashes[i];
      }
      SplitJoin(toks, ' ');
      assert c.children != "" by {
        if |toks| == 1 {
          assert c.children == toks[0];
        } else {
          assert c.children == toks[0] + [' '] + Join(toks[1..], ' ');
        }
        assert |toks[0]| > 0;
      }
      forall i | 0 <= i < |revs| ensures FirstField(toks[i], ':') == revs[i] {
        SplitFieldThenSep(revs[i], ':', hashes[i]);
      }
    }
  }

  /** `Utils.getParentRevs`: p1 then p2, dropping the sentinel. */
  function GetParentRevs(c: CSet): (r: seq<string>)
    ensures |r| == (if c.p1rev != NoParentRev then 1 else 0) + (if c.p2rev != NoParentRev then 1 else 0)
    ensures NoParentRev !in r
    ensures forall x :: x in r <==> x != NoParentRev && (x == c.p1rev || x == c.p2rev)
    ensures c.p1rev != NoParentRev ==> |r| > 0 && r[0] == c.p1rev
    ensures c.p2rev != NoParentRev ==> |r| > 0 && r[|r| - 1] == c.p2rev
  {
    (if c.p1rev != NoParentRev then [c.p1rev] else [])
      + (if c.p2rev != NoParentRev then [c.p2rev] else [])
  }

  /** `Utils.hasParents`: exactly when `getParentRevs` lists a parent. */
  predicate HasParents(c: CSet): (r: bool)
    ensures r <==> |GetParentRevs(c)| > 0
  {
    c.p1rev != NoParentRev || c.p2rev != NoParentRev
  }
}

=== FILE: classify.dfy ===
/** The three changeset tests of `HgGraph` (hggraph.py lines 473-503) and the
    "interesting" filter of `buildChangeSets` built from them. */
module Classify {
  import opened Wrappers
  import opened ChangeSets

  /** The one real parent of a single-parent changeset. */
  function SoleParent(c: CSet): string
  {
    if c.p1rev != NoParentRev then c.p1rev else c.p2rev
  }

  /** `_isMerge` dereferences the resolved parent of a single-parent
      changeset without a `None` check, so that lookup must succeed. */
  predicate MergeResolvable(env: Env, c: CSet)
  {
    (c.p1rev == NoParentRev) != (c.p2rev == NoParentRev) ==> env.Resolve(SoleParent(c)).Some?
  }

  /** `_isMerge`: two real parents always make a merge, whatever their
      branches; no parent never does; a single parent does when it lies on
      another branch. Over `getParentRevs`: two listed parents, or one
      listed parent that resolves to another branch. */
  function IsMerge(env: Env, c: CSet): (r: bool)
    requires MergeResolvable(env, c)
    ensures r <==>
      |GetParentRevs(c)| == 2
      || (|GetParentRevs(c)| == 1 && env.Resolve(GetParentRevs(c)[0]).Some?
          && env.Resolve(GetParentRevs(c)[0]).value.branch != c.branch)
  {
    var ps := GetParentRevs(c);
    assert |ps| == 1 ==> ps[0] == SoleParent(c);
    if c.p1rev != NoParentRev && c.p2rev != NoParentRev then true
    else if c.p1rev == NoParentRev && c.p2rev == NoParentRev then false
    else env.Resolve(SoleParent(c)).value.branch != c.branch
  }

  /** A root is never a merge and lists no parent. */
  lemma RootIsNotMerge(env: Env, c: CSet)
    requires c.p1rev == NoParentRev && c.p2rev == NoParentRev
    ensures MergeResolvable(env, c) && !IsMerge(env, c)
    ensures !HasParents(c) && GetParentRevs(c) == []
  {
  }

  /** `rev` resolves to a changeset whose branch is (`same`) or is not
      (`!same`) `branch`. */
  predicate ResolvesOn(env: Env, rev: string, branch: string, same: bool)
  {
    env.Resolve(rev).Some? && (env.Resolve(rev).value.branch == branch) == same
  }

  /** The loop shared by `_isBranch` and `_isTip`: look each child up in
      turn and stop at the first one that resolves with the wanted branch
      relation; unresolved children are skipped. */
  function FindChild(env: Env, revs: seq<string>, branch: string, same: bool): bool
    decreases |revs|
  {
    |revs| > 0 && (ResolvesOn(env, revs[0], branch, same) || FindChild(env, revs[1..], branch, same))
  }

  lemma {:induction false} FindChildExists(env: Env, revs: seq<string>, branch: string, same: bool)
    ensures FindChild(env, revs, branch, same) <==> exists r :: r in revs && ResolvesOn(env, r, branch, same)
    decreases |revs|
  {
    if |revs| > 0 {
      FindChildExists(env, revs[1..], branch, same);
      assert forall r :: r in revs <==> r == revs[0] || r in revs[1..];
    }
  }

  /** `_isBranch`: some child resolves to another branch. When no child
      qualifies the Python function falls off its end and returns `None`,
      which its callers read as false. */
  function IsBranch(env: Env, c: CSet): (r: bool)
    ensures r <==> c.children != "" && exists x :: x in ChildTokens(c) && ResolvesOn(env, x, c.branch, false)
  {
    FindChildExists(env, ChildTokens(c), c.branch, false);
    c.children != "" && FindChild(env, ChildTokens(c), c.branch, false)
  }

  /** `_isTip`: no children at all, or no child that resolves to the same
      branch. */
  function IsTip(env: Env, c: CSet): (r: bool)
    ensures c.children == "" ==> r
    ensures c.children != "" ==> (!r <==> exists x :: x in ChildTokens(c) && ResolvesOn(env, x, c.branch, true))
  {
    FindChildExists(env, ChildTokens(c), c.branch, true);
    c.children == "" || !FindChild(env, ChildTokens(c), c.branch, true)
  }

  /** The filter of `buildChangeSets`: a changeset is kept in its branch
      group when it is a merge, a branch point, a tip or tagged. Spelled
      out: it is a merge, has no children, has a child on another branch,
      has no resolvable child on its own branch, or carries a tag. */
  predicate Interesting(env: Env, c: CSet): (r: bool)
    requires MergeResolvable(env, c)
    ensures r <==>
      IsMerge(env, c)
      || c.children == ""
      || (exists x :: x in ChildTokens(c) && ResolvesOn(env, x, c.branch, false))
      || !(exists x :: x in ChildTokens(c) && ResolvesOn(env, x, c.branch, true))
      || c.tags != ""
  {
    IsMerge(env, c) || IsBranch(env, c) || IsTip(env, c) || c.tags != ""
  }

  /** A changeset that continues its branch through a resolved child, has a
      single same-branch parent, no foreign child and no tag is dropped. */
  lemma PlainChangesetNotInteresting(env: Env, c: CSet, child: string)
    requires c.tags == "" && c.children != ""
    requires (c.p1rev == NoParentRev) != (c.p2rev == NoParentRev)
    requires env.Resolve(SoleParent(c)).Some? && env.Resolve(SoleParent(c)).value.branch == c.branch
    requires child in ChildTokens(c) && ResolvesOn(env, child, c.branch, true)
    requires forall x :: x in ChildTokens(c) ==> !ResolvesOn(env, x, c.branch, false)
    ensures MergeResolvable(env, c) && !Interesting(env, c)
  {
  }
}

=== FILE: grouping.dfy ===
/** How `buildChangeSets` turns the ingested log into branch groups
    (hggraph.py lines 525-531): `sorted(..., key=branch)` with `groupby`
    yields each branch name once, in increasing string order; each group
    keeps its interesting changesets, stably sorted by revision string. */
module Grouping {
  import opened Strings
  import opened ChangeSets
  import opened Classify

  ghost predicate StrictlyIncreasing(s: seq<string>)
  {
    forall i, j :: 0 <= i < j < |s| ==> Less(s[i], s[j])
  }

  ghost predicate SortedByRev(s: seq<CSet>)
  {
    forall i, j :: 0 <= i < j < |s| ==> LessEq(s[i].rev, s[j].rev)
  }

  /** No two positions of `s` carry the same revision. */
  ghost predicate UniqueRevs(s: seq<CSet>)
  {
    forall i, j :: 0 <= i < j < |s| ==> s[i].rev != s[j].rev
  }

  /** The branch names occurring in a log. */
  function BranchSet(csets: seq<CSet>): set<string>
  {
    set c | c in csets :: c.branch
  }

  lemma LessThanAll(x: string, s: seq<string>)
    requires StrictlyIncreasing(s) && |s| > 0 && Less(x, s[0])
    ensures StrictlyIncreasing([x] + s)
  {
    forall j | 0 < j < |s| ensures Less(x, s[j]) {
      LessTransitive(x, s[0], s[j]);
    }
  }

  /** Adds one name to a strictly increasing sequence of names. */
  function InsertKey(x: string, s: seq<string>): (r: seq<string>)
    requires StrictlyIncreasing(s)
    ensures StrictlyIncreasing(r)
    ensures forall y :: y in r <==> y == x || y in s
    decreases |s|
  {
    if |s| == 0 then [x]
    else if x == s[0] then s
    else if Less(x, s[0]) then
      LessThanAll(x, s);
      [x] + s
    else
      LessTotal(x, s[0]);
      var r' := InsertKey(x, s[1..]);
      assert forall y :: y in r' ==> Less(s[0], y);
      [s[0]] + r'
  }

  /** The branch keys of the groups, in the order the groups are created. */
  function BranchKeys(csets: seq<CSet>): (r: seq<string>)
    ensures StrictlyIncreasing(r)
    ensures forall b :: b in r <==> b in BranchSet(csets)
    decreases |csets|
  {
    if |csets| == 0 then []
    else
      assert forall c :: c in csets <==> c == csets[0] || c in csets[1..];
      InsertKey(csets[0].branch, BranchKeys(csets[1..]))
  }

  /** The distinct keys appear once each. */
  lemma StrictlyIncreasingDistinct(s: seq<string>)
    requires StrictlyIncreasing(s)
    ensures forall i, j :: 0 <= i < j < |s| ==> s[i] != s[j]
  {
    forall i, j | 0 <= i < j < |s| ensures s[i] != s[j] {
      LessIrreflexive(s[i]);
    }
  }

  /** The changesets of `s` that satisfy `p`, in their order. */
  function Filter(s: seq<CSet>, p: CSet -> bool): (r: seq<CSet>)
    ensures forall c :: c in r <==> c in s && p(c)
    ensures multiset(r) <= multiset(s)
    decreases |s|
  {
    if |s| == 0 then []
    else
      assert s == [s[0]] + s[1..];
      if p(s[0]) then [s[0]] + Filter(s[1..], p) else Filter(s[1..], p)
  }

  /** Filtering keeps every occurrence of a changeset that passes and none
      of one that fails. */
  lemma {:induction false} FilterCounts(s: seq<CSet>, p: CSet -> bool)
    ensures forall c :: multiset(Filter(s, p))[c] == if p(c) then multiset(s)[c] else 0
    decreases |s|
  {
    if |s| > 0 {
      FilterCounts(s[1..], p);
      assert s == [s[0]] + s[1..];
    }
  }

  lemma {:induction false} FilterUnique(s: seq<CSet>, p: CSet -> bool)
    requires UniqueRevs(s)
    ensures UniqueRevs(Filter(s, p))
    decreases |s|
  {
    if |s| > 0 {
      FilterUnique(s[1..], p);
      var rest := Filter(s[1..], p);
      if p(s[0]) {
        forall c | c in rest ensures c.rev != s[0].rev {
          var j :| 0 <= j < |s[1..]| && s[1..][j] == c;
          assert s[j + 1] == c;
        }
      }
    }
  }

  /** The test a changeset must pass to enter the group of branch `b`. */
  predicate Kept(env: Env, b: string, c: CSet)
  {
    c.branch == b && MergeResolvable(env, c) && Interesting(env, c)
  }

  /** Inserts `x` before the first element whose revision is not smaller, so
      that of two equal revisions the one inserted later in the recursion
      (earlier in the log) comes first. */
  function InsertByRev(x: CSet, s: seq<CSet>): (r: seq<CSet>)
    requires SortedByRev(s)
    ensures SortedByRev(r)
    ensures forall y :: y in r <==> y == x || y in s
    decreases |s|
  {
    if |s| == 0 then [x]
    else if Less(s[0].rev, x.rev) then
      var r' := InsertByRev(x, s[1..]);
      assert forall y :: y in r' ==> LessEq(s[0].rev, y.rev) by {
        forall y | y in r' ensures LessEq(s[0].rev, y.rev) {
          if y != x {
            var j :| 0 <= j < |s[1..]| && s[1..][j] == y;
            assert s[j + 1] == y;
          }
        }
      }
      [s[0]] + r'
    else
      LessTotal(s[0].rev, x.rev);
      assert forall j :: 0 <= j < |s| ==> LessEq(x.rev, s[j].rev) by {
        forall j | 0 <= j < |s| ensures LessEq(x.rev, s[j].rev) {
          LessEqTransitive(x.rev, s[0].rev, s[j].rev);
        }
      }
      [x] + s
  }

  /** Inserting adds exactly one occurrence of `x`. */
  lemma {:induction false} InsertByRevPermutes(x: CSet, s: seq<CSet>)
    requires SortedByRev(s)
    ensures multiset(InsertByRev(x, s)) == multiset(s) + multiset{x}
    decreases |s|
  {
    if |s| > 0 && Less(s[0].rev, x.rev) {
      InsertByRevPermutes(x, s[1..]);
      assert s == [s[0]] + s[1..];
    }
  }

  lemma {:induction false} InsertByRevUnique(x: CSet, s: seq<CSet>)
    requires SortedByRev(s) && UniqueRevs(s) && x.rev !in Revs(s)
    ensures UniqueRevs(InsertByRev(x, s))
    decreases |s|
  {
    if |s| > 0 && Less(s[0].rev, x.rev) {
      InsertByRevUnique(x, s[1..]);
      var r' := InsertByRev(x, s[1..]);
      forall y | y in r' ensures y.rev != s[0].rev {
        if y != x {
          var j :| 0 <= j < |s[1..]| && s[1..][j] == y;
          assert s[j + 1] == y;
        }
      }
    }
  }

  /** Python's stable `sorted(l, key=lambda x: x.rev)`. */
  function SortByRev(s: seq<CSet>): (r: seq<CSet>)
    ensures SortedByRev(r)
    ensures multiset(r) == multiset(s)
    decreases |s|
  {
    if |s| == 0 then []
    else
      assert s == [s[0]] + s[1..];
      InsertByRevPermutes(s[0], SortByRev(s[1..]));
      InsertByRev(s[0], SortByRev(s[1..]))
  }

  lemma {:induction false} SortByRevUnique(s: seq<CSet>)
    requires UniqueRevs(s)
    ensures UniqueRevs(SortByRev(s))
    decreases |s|
  {
    if |s| > 0 {
      assert s == [s[0]] + s[1..];
      SortByRevUnique(s[1..]);
      var r' := SortByRev(s[1..]);
      forall y | y in r' ensures y.rev != s[0].rev {
        assert y in multiset(s[1..]);
        var j :| 0 <= j < |s[1..]| && s[1..][j] == y;
        assert s[j + 1] == y;
      }
      InsertByRevUnique(s[0], r');
    }
  }

  /** One branch group `brs[b]`: the interesting changesets of `b`, sorted by
      revision string. */
  function Group(env: Env, csets: seq<CSet>, b: string): (r: seq<CSet>)
    ensures forall c :: c in r <==> c in csets && Kept(env, b, c)
    ensures SortedByRev(r)
    ensures multiset(r) <= multiset(csets)
    ensures forall c :: multiset(r)[c] == if Kept(env, b, c) then multiset(csets)[c] else 0
  {
    var kept := Filter(csets, c => Kept(env, b, c));
    FilterCounts(csets, c => Kept(env, b, c));
    var r := SortByRev(kept);
    assert forall c :: c in r <==> c in kept by {
      forall c ensures c in r <==> c in kept {
        assert c in r <==> c in multiset(r);
        assert c in kept <==> c in multiset(kept);
      }
    }
    r
  }

  /** When the log carries every revision once, each group is strictly
      increasing in revision. */
  lemma GroupStrictlyIncreasing(env: Env, csets: seq<CSet>, b: string)
    requires UniqueRevs(csets)
    ensures var g := Group(env, csets, b);
      forall i, j :: 0 <= i < j < |g| ==> Less(g[i].rev, g[j].rev)
  {
    FilterUnique(csets, c => Kept(env, b, c));
    SortByRevUnique(Filter(csets, c => Kept(env, b, c)));
  }
}

=== FILE: render.dfy ===
/** The structure `GraphViz.dumpGraph` (hggraph.py lines 557-724) renders
    from a built topology: which nodes exist and how each is labelled and
    styled, one subgraph per branch with its colour, members and spine, and
    the cross-branch links. The DOT text itself is not modelled. */
module Render {
  import opened Strings
  import opened ChangeSets
  import opened Topology
  import opened AttachTheorems

  /** The renderer's configuration. The regular-expression shorteners of
      `_extractReValue` are uninterpreted functions; the shape, style and
      colour attributes are abstracted into `Look`. */
  datatype Config = Config(
    colors: seq<string>,
    arrange: bool,
    cluster: bool,
    shortBranch: string -> string,
    shortTag: string -> string)

  // ---------------------------------------------------------------------
  // The round-robin palette
  // ---------------------------------------------------------------------

  /** `_getNextColor`: the colour under the counter and the advanced
      counter; a counter past the end of the palette restarts at 0. */
  function NextColor(colors: seq<string>, cur: nat): (r: (string, nat))
    requires |colors| > 0
    ensures 1 <= r.1 <= |colors|
    ensures cur <= |colors| ==> r.0 == colors[cur % |colors|] && r.1 == cur % |colors| + 1
  {
    if cur < |colors| then (colors[cur], cur + 1) else (colors[0], 1)
  }

  /** `k` successive calls of `_getNextColor` from counter `cur`. */
  function Draw(colors: seq<string>, cur: nat, k: nat): (r: (seq<string>, nat))
    requires k > 0 ==> |colors| > 0
    ensures |r.0| == k
    ensures forall i :: 0 <= i < k ==> r.0[i] in colors
    ensures k == 0 ==> r.1 == cur
    ensures k > 0 ==> 1 <= r.1 <= |colors|
    decreases k
  {
    if k == 0 then ([], cur)
    else
      var (c, next) := NextColor(colors, cur);
      var (rest, last) := Draw(colors, next, k - 1);
      ([c] + rest, last)
  }

  /** Euclidean division is unique: a quotient and remainder in range
      determine `%`. */
  lemma ModUnique(y: int, n: int, a: int, r: int)
    requires n > 0 && 0 <= r < n && y == a * n + r
    ensures y % n == r
  {
    var d := a - y / n;
    assert d * n == y % n - r;
  }

  lemma ModAdd(a: nat, b: nat, n: nat)
    requires n > 0
    ensures (a % n + b) % n == (a + b) % n
  {
    var q := a / n;
    var c := a % n + b;
    assert c == (c / n) * n + c % n;
    assert a + b == (q + c / n) * n + c % n by {
      assert a == q * n + a % n;
      assert (q + c / n) * n == q * n + (c / n) * n;
    }
    ModUnique(a + b, n, q + c / n, c % n);
  }

  /** Round robin: the `i`-th colour drawn from counter `cur` is
      `colors[(cur + i) mod |colors|]`; from a fresh renderer (counter 0)
      the `k`-th call returns `colors[k mod |colors|]`. */
  lemma {:induction false} DrawRoundRobin(colors: seq<string>, cur: nat, k: nat)
    requires |colors| > 0 && cur <= |colors|
    ensures forall i :: 0 <= i < k ==> Draw(colors, cur, k).0[i] == colors[(cur + i) % |colors|]
    decreases k
  {
    if k > 0 {
      var n := |colors|;
      var (c, next) := NextColor(colors, cur);
      DrawRoundRobin(colors, next, k - 1);
      var r := Draw(colors, cur, k).0;
      forall i | 0 <= i < k ensures r[i] == colors[(cur + i) % n] {
        if i > 0 {
          assert r[i] == Draw(colors, next, k - 1).0[i - 1];
          ModAdd(cur, i, n);
          assert next + (i - 1) == cur % n + i;
        }
      }
    }
  }

  // ---------------------------------------------------------------------
  // Nodes
  // ---------------------------------------------------------------------

  /** The `type` argument of `Utils.createGraphVizNode`: "TAIL", "TIP", ""
      (a branch member) or "LEAF". */
  datatype Role = TailRole | TipRole | MemberRole | LeafRole

  /** The four label layouts of `Utils.createGraphVizNode`. */
  datatype Label =
    | TagDateRev(tag: string, date: string, rev: string)
    | TipText
    | NameRev(name: string, rev: string)
    | DateRev(date: string, rev: string)

  /** Which configured attribute family styles a node: the tail, tip,
      member ("cset") or leaf ("mb") attributes; `TagLook` is the member
      shape and style with the tag fill and font colours. */
  datatype Look = TailLook | TipLook | MemberLook | TagLook | LeafLook

  datatype Node = Node(name: string, caption: Label, look: Look)

  /** `Utils.createGraphVizNodeName`. */
  function NodeName(rev: string): (r: string)
    ensures |r| == |rev| + 1 && r[0] == 'r' && r[1..] == rev
  {
    "r" + rev
  }

  lemma NodeNameInjective(a: string, b: string)
    requires NodeName(a) == NodeName(b)
    ensures a == b
  {
    assert a == NodeName(a)[1..];
  }

  /** The label choice of `Utils.createGraphVizNode`: a tagged changeset or
      a leaf shows tag name, date and revision whatever else it is; a tip
      shows "tip"; a tail shows name and revision; any other node shows
      date and revision. The date is its first space-separated field. */
  function NodeLabel(role: Role, c: CSet, tagName: string): (r: Label)
    ensures r.TagDateRev? <==> c.tags != "" || role == LeafRole
    ensures r.TipText? <==> c.tags == "" && role == TipRole
    ensures r.NameRev? <==> c.tags == "" && role == TailRole
    ensures r.DateRev? <==> c.tags == "" && role == MemberRole
    ensures !r.TipText? ==> r.rev == c.rev
    ensures r.TagDateRev? ==> r.tag == tagName
    ensures r.NameRev? ==> r.name == tagName
    ensures r.TagDateRev? || r.DateRev? ==> r.date == FirstField(c.date, ' ')
  {
    var dt := FirstField(c.date, ' ');
    if c.tags != "" || role == LeafRole then TagDateRev(tagName, dt, c.rev)
    else if role == TipRole then TipText
    else if role == TailRole then NameRev(tagName, c.rev)
    else assert role == MemberRole; DateRev(dt, c.rev)
  }

  /** The node `_generateNodes` writes for a tail. */
  function TailNode(cfg: Config, c: CSet): (r: Node)
    ensures r.name == NodeName(c.rev) && r.look == TailLook
    ensures r.caption.NameRev? <==> c.tags == ""
    ensures r.caption.TagDateRev? <==> c.tags != ""
    ensures r.caption.rev == c.rev
    ensures r.caption.NameRev? ==> r.caption.name == cfg.shortBranch(c.branch)
    ensures r.caption.TagDateRev? ==> r.caption.tag == cfg.shortBranch(c.branch) && r.caption.date == FirstField(c.date, ' ')
  {
    Node(NodeName(c.rev), NodeLabel(TailRole, c, cfg.shortBranch(c.branch)), TailLook)
  }

  /** The node `_generateNodes` writes for a synthetic tip. */
  function TipNode(c: CSet): (r: Node)
    ensures r.name == NodeName(c.rev) && r.look == TipLook
    ensures r.caption.TipText? <==> c.tags == ""
    ensures r.caption.TagDateRev? ==> r.caption.tag == ""
  {
    Node(NodeName(c.rev), NodeLabel(TipRole, c, ""), TipLook)
  }

  /** The node `_generateNodes` writes for a branch member; tagged members
      take the tag colours. */
  function MemberNode(cfg: Config, c: CSet): (r: Node)
    ensures r.name == NodeName(c.rev)
    ensures r.look == TagLook <==> c.tags != ""
    ensures r.look == MemberLook <==> c.tags == ""
    ensures r.caption.DateRev? <==> c.tags == ""
    ensures r.caption.TagDateRev? <==> c.tags != ""
    ensures r.caption.rev == c.rev
    ensures r.caption.TagDateRev? ==> r.caption.tag == cfg.shortTag(c.tags)
    ensures r.caption.date == FirstField(c.date, ' ')
  {
    var tagName := if c.tags != "" then cfg.shortTag(c.tags) else "";
    Node(NodeName(c.rev), NodeLabel(MemberRole, c, tagName), if c.tags != "" then TagLook else MemberLook)
  }

  /** The node `_generateNodes` writes for a leaf. */
  function LeafNode(cfg: Config, c: CSet): (r: Node)
    ensures r.name == NodeName(c.rev) && r.look == LeafLook
    ensures r.caption.TagDateRev? && r.caption.rev == c.rev
    ensures r.caption.tag == cfg.shortBranch(c.branch)
    ensures r.caption.date == FirstField(c.date, ' ')
  {
    Node(NodeName(c.rev), NodeLabel(LeafRole, c, cfg.shortBranch(c.branch)), LeafLook)
  }

  /** Every branch group, in key order, concatenated. */
  function Members(keys: seq<string>, brs: map<string, seq<CSet>>): (r: seq<CSet>)
    requires forall k :: k in keys ==> k in brs
    ensures forall c :: c in r <==> exists i :: 0 <= i < |keys| && c in brs[keys[i]]
    decreases |keys|
  {
    if |keys| == 0 then []
    else
      var r := brs[keys[0]] + Members(keys[1..], brs);
      assert forall c :: c in r <==> exists i :: 0 <= i < |keys| && c in brs[keys[i]] by {
        forall c ensures c in r <==> exists i :: 0 <= i < |keys| && c in brs[keys[i]] {
          if c in r && c !in brs[keys[0]] {
            var i :| 0 <= i < |keys[1..]| && c in brs[keys[1..][i]];
            assert keys[1..][i] == keys[i + 1];
          }
          if exists i :: 0 <= i < |keys| && c in brs[keys[i]] {
            var i :| 0 <= i < |keys| && c in brs[keys[i]];
            if i > 0 {
              assert keys[1..][i - 1] == keys[i];
            }
          }
        }
      }
      r
  }

  /** `_generateNodes`: the node map, filled from the tails, the tips, the
      branch groups in key order and the leaves, a later write replacing an
      earlier one under the same revision. It holds one node per distinct
      revision of the four sources, named after that revision. */
  function GenerateNodes(t: Topology, cfg: Config): (r: map<string, Node>)
    requires FiledByRev(t.tails) && FiledByRev(t.tips)
    requires forall k :: k in t.keys ==> k in t.brs
    ensures r.Keys == t.tails.Keys + t.tips.Keys + Revs(Members(t.keys, t.brs)) + Revs(t.leaves)
    ensures forall k :: k in r ==> r[k].name == NodeName(k)
  {
    var ms := Members(t.keys, t.brs);
    var n2 := TailAndTipNodes(t, cfg);
    var n3 := Record(n2, ms, c => MemberNode(cfg, c));
    var r := Record(n3, t.leaves, c => LeafNode(cfg, c));
    assert forall k :: k in n2 ==> n2[k].name == NodeName(k) by {
      forall k | k in n2 ensures n2[k].name == NodeName(k) {
        if k in t.tips {
          assert t.tips[k].rev == k;
        } else {
          assert t.tails[k].rev == k;
        }
      }
    }
    RecordKeys(n2, ms, c => MemberNode(cfg, c));
    RecordKeys(n3, t.leaves, c => LeafNode(cfg, c));
    NamedByKey(n2, ms, c => MemberNode(cfg, c));
    NamedByKey(n3, t.leaves, c => LeafNode(cfg, c));
    r
  }

  /** The first two loops of `_generateNodes`: the tails, then the tips. */
  function TailAndTipNodes(t: Topology, cfg: Config): (r: map<string, Node>)
    ensures r.Keys == t.tails.Keys + t.tips.Keys
    ensures forall k :: k in t.tips ==> r[k] == TipNode(t.tips[k])
    ensures forall k :: k in t.tails && k !in t.tips ==> r[k] == TailNode(cfg, t.tails[k])
  {
    var tails := map k | k in t.tails :: TailNode(cfg, t.tails[k]);
    var tips := map k | k in t.tips :: TipNode(t.tips[k]);
    tails + tips
  }

  /** Writing nodes by revision keeps every node named after its key. */
  lemma NamedByKey(m: map<string, Node>, s: seq<CSet>, f: CSet -> Node)
    requires forall k :: k in m ==> m[k].name == NodeName(k)
    requires forall c :: f(c).name == NodeName(c.rev)
    ensures forall k :: k in Record(m, s, f) ==> Record(m, s, f)[k].name == NodeName(k)
  {
    RecordValues(m, s, f);
    forall k | k in Record(m, s, f) ensures Record(m, s, f)[k].name == NodeName(k) {
      if !(k in m && k !in Revs(s) && Record(m, s, f)[k] == m[k]) {
        var i :| LastAt(s, i, k) && Record(m, s, f)[k] == f(s[i]);
      }
    }
  }

  /** The last write wins: a revision among the leaves shows its last
      leaf. */
  lemma LeafNodesWin(t: Topology, cfg: Config)
    requires FiledByRev(t.tails) && FiledByRev(t.tips)
    requires forall k :: k in t.keys ==> k in t.brs
    ensures var r := GenerateNodes(t, cfg);
      forall i :: 0 <= i < |t.leaves| && LastAt(t.leaves, i, t.leaves[i].rev) ==>
        r[t.leaves[i].rev] == LeafNode(cfg, t.leaves[i])
  {
    var n3 := Record(TailAndTipNodes(t, cfg), Members(t.keys, t.brs), c => MemberNode(cfg, c));
    RecordLastWins(n3, t.leaves, c => LeafNode(cfg, c));
  }

  /** A revision no leaf carries keeps what the first three loops wrote. */
  lemma NodesBeforeLeaves(t: Topology, cfg: Config, k: string)
    requires FiledByRev(t.tails) && FiledByRev(t.tips)
    requires forall k :: k in t.keys ==> k in t.brs
    requires k in GenerateNodes(t, cfg) && k !in Revs(t.leaves)
    ensures var n3 := Record(TailAndTipNodes(t, cfg), Members(t.keys, t.brs), c => MemberNode(cfg, c));
      k in n3 && GenerateNodes(t, cfg)[k] == n3[k]
  {
    var n3 := Record(TailAndTipNodes(t, cfg), Members(t.keys, t.brs), c => MemberNode(cfg, c));
    RecordLastWins(n3, t.leaves, c => LeafNode(cfg, c));
  }

  /** Otherwise a revision among the branch members shows its last member. */
  lemma MemberNodesWin(t: Topology, cfg: Config, i: int)
    requires FiledByRev(t.tails) && FiledByRev(t.tips)
    requires forall k :: k in t.keys ==> k in t.brs
    requires var ms := Members(t.keys, t.brs);
      0 <= i < |ms| && LastAt(ms, i, ms[i].rev) && ms[i].rev !in Revs(t.leaves)
    ensures var ms := Members(t.keys, t.brs);
      GenerateNodes(t, cfg)[ms[i].rev] == MemberNode(cfg, ms[i])
  {
    var ms := Members(t.keys, t.brs);
    RecordLastWins(TailAndTipNodes(t, cfg), ms, c => MemberNode(cfg, c));
    NodesBeforeLeaves(t, cfg, ms[i].rev);
  }

  /** Otherwise a tip shows the tip, and only then a tail the tail. */
  lemma TipAndTailNodes(t: Topology, cfg: Config, k: string)
    requires FiledByRev(t.tails) && FiledByRev(t.tips)
    requires forall k :: k in t.keys ==> k in t.brs
    requires k in t.tails || k in t.tips
    requires k !in Revs(Members(t.keys, t.brs)) && k !in Revs(t.leaves)
    ensures k in t.tips ==> GenerateNodes(t, cfg)[k] == TipNode(t.tips[k])
    ensures k !in t.tips ==> GenerateNodes(t, cfg)[k] == TailNode(cfg, t.tails[k])
  {
    RecordLastWins(TailAndTipNodes(t, cfg), Members(t.keys, t.brs), c => MemberNode(cfg, c));
    NodesBeforeLeaves(t, cfg, k);
  }

  /** Only synthetic tips are drawn with the "tip" label: a node shows it
      exactly when its revision is a tip's, no branch member or leaf
      rewrote it, and the tip record carries no tags. */
  lemma TipLabelOnlyForTips(t: Topology, cfg: Config, k: string)
    requires FiledByRev(t.tails) && FiledByRev(t.tips)
    requires forall b :: b in t.keys ==> b in t.brs
    requires k in GenerateNodes(t, cfg)
    ensures GenerateNodes(t, cfg)[k].caption.TipText? <==>
      k in t.tips && k !in Revs(Members(t.keys, t.brs)) && k !in Revs(t.leaves) && t.tips[k].tags == ""
  {
    var r := GenerateNodes(t, cfg);
    var ms := Members(t.keys, t.brs);
    if k in Revs(t.leaves) {
      LastExists(t.leaves, k);
      var i :| LastAt(t.leaves, i, k);
      LeafNodesWin(t, cfg);
      assert r[k].caption.TagDateRev?;
    } else if k in Revs(ms) {
      LastExists(ms, k);
      var i :| LastAt(ms, i, k);
      MemberNodesWin(t, cfg, i);
      assert !r[k].caption.TipText?;
    } else {
      TipAndTailNodes(t, cfg, k);
    }
  }

  // ---------------------------------------------------------------------
  // Subgraphs
  // ---------------------------------------------------------------------

  /** `Utils.createGraphVizLink`: an edge between two node names. */
  datatype GvLink = GvLink(from: string, to: string, text: string)

  function LinkBetween(a: CSet, b: CSet, text: string): (r: GvLink)
    ensures |r.from| == |a.rev| + 1 && r.from[1..] == a.rev
    ensures |r.to| == |b.rev| + 1 && r.to[1..] == b.rev
    ensures r.text == text
  {
    GvLink(NodeName(a.rev), NodeName(b.rev), text)
  }

  /** A drawn link determines the revisions of its two ends and its
      label. */
  lemma LinkBetweenInjective(a: CSet, b: CSet, x: string, a': CSet, b': CSet, y: string)
    requires LinkBetween(a, b, x) == LinkBetween(a', b', y)
    ensures a.rev == a'.rev && b.rev == b'.rev && x == y
  {
    NodeNameInjective(a.rev, a'.rev);
    NodeNameInjective(b.rev, b'.rev);
  }

  /** The straight line drawn through a branch group: one link between each
      pair of neighbours. */
  function Spine(l: seq<CSet>, text: string): (r: seq<GvLink>)
    ensures |r| == if |l| == 0 then 0 else |l| - 1
    ensures forall i :: 0 <= i < |r| ==> r[i].from == NodeName(l[i].rev) && r[i].to == NodeName(l[i + 1].rev)
    ensures forall i :: 0 <= i < |r| ==> r[i].text == text
  {
    if |l| <= 1 then [] else [LinkBetween(l[0], l[1], text)] + Spine(l[1..], text)
  }

  /** The spine is one path: each link starts where the previous one ended,
      from the group's first member to its last. */
  lemma SpineIsPath(l: seq<CSet>, text: string)
    requires |l| >= 2
    ensures var r := Spine(l, text);
      && r[0].from == NodeName(l[0].rev)
      && r[|r| - 1].to == NodeName(l[|l| - 1].rev)
      && forall i :: 0 <= i < |r| - 1 ==> r[i].to == r[i + 1].from
  {
  }

  /** `str.replace` of one character by another. */
  function Replace(s: string, a: char, b: char): (r: string)
    ensures |r| == |s|
    ensures forall i :: 0 <= i < |s| ==> r[i] == if s[i] == a then b else s[i]
  {
    if |s| == 0 then "" else [if s[0] == a then b else s[0]] + Replace(s[1..], a, b)
  }

  /** The subgraph name's branch part: '.' and then '-' replaced by '_'. */
  function Sanitize(b: string): (r: string)
    ensures |r| == |b| && '.' !in r && '-' !in r
    ensures forall i :: 0 <= i < |b| && b[i] != '.' && b[i] != '-' ==> r[i] == b[i]
    ensures forall i :: 0 <= i < |b| && (b[i] == '.' || b[i] == '-') ==> r[i] == '_'
  {
    Replace(Replace(b, '.', '_'), '-', '_')
  }

  lemma SanitizeIdempotent(b: string)
    ensures Sanitize(Sanitize(b)) == Sanitize(b)
  {
  }

  datatype Subgraph = Subgraph(
    name: string,
    title: string,
    hidden: bool,
    color: string,
    members: seq<string>,
    spine: seq<GvLink>)

  /** The subgraph `_generateSubgraphs` emits for branch `b` with group `l`
      and edge colour `color`. */
  function BranchSubgraph(cfg: Config, b: string, l: seq<CSet>, color: string): (r: Subgraph)
    ensures r.title == b && r.color == color && r.hidden == cfg.cluster
    ensures '.' !in r.name && '-' !in r.name
    ensures |r.name| == |b| + (if cfg.cluster then 8 else 0)
    ensures cfg.cluster ==> r.name[..8] == "cluster_"
    ensures r.name[(if cfg.cluster then 8 else 0)..] == Sanitize(b)
    ensures |r.members| == |l| && forall i :: 0 <= i < |l| ==> r.members[i] == NodeName(l[i].rev)
    ensures |r.spine| == if |l| == 0 then 0 else |l| - 1
    ensures forall i :: 0 <= i < |r.spine| ==>
      r.spine[i].from == r.members[i] && r.spine[i].to == r.members[i + 1] && r.spine[i].text == cfg.shortBranch(b)
  {
    Subgraph((if cfg.cluster then "cluster_" else "") + Sanitize(b), b, cfg.cluster, color,
             seq(|l|, i requires 0 <= i < |l| => NodeName(l[i].rev)), Spine(l, cfg.shortBranch(b)))
  }

  // ---------------------------------------------------------------------
  // Branch order
  // ---------------------------------------------------------------------

  ghost predicate NonIncreasing(s: seq<string>, brs: map<string, seq<CSet>>)
    requires forall k :: k in s ==> k in brs
  {
    forall i, j :: 0 <= i < j < |s| ==> |brs[s[i]]| >= |brs[s[j]]|
  }

  /** Places `k` before the first key whose group is not larger, so that
      keys of equal size keep their order. */
  function InsertBySize(k: string, s: seq<string>, brs: map<string, seq<CSet>>): (r: seq<string>)
    requires k in brs && forall x :: x in s ==> x in brs
    requires NonIncreasing(s, brs)
    ensures forall x :: x in r <==> x == k || x in s
    ensures NonIncreasing(r, brs)
  {
    if |s| == 0 || |brs[k]| >= |brs[s[0]]| then [k] + s
    else
      var rest := InsertBySize(k, s[1..], brs);
      assert forall x :: x in rest ==> |brs[x]| <= |brs[s[0]]|;
      [s[0]] + rest
  }

  lemma {:induction false} InsertBySizePermutes(k: string, s: seq<string>, brs: map<string, seq<CSet>>)
    requires k in brs && forall x :: x in s ==> x in brs
    requires NonIncreasing(s, brs)
    ensures multiset(InsertBySize(k, s, brs)) == multiset(s) + multiset{k}
  {
    if |s| > 0 && |brs[k]| < |brs[s[0]]| {
      InsertBySizePermutes(k, s[1..], brs);
      assert s == [s[0]] + s[1..];
    }
  }

  /** `sorted(..., reverse=True, key=len)`: a stable sort by group size,
      largest first. */
  function SortBySize(s: seq<string>, brs: map<string, seq<CSet>>): (r: seq<string>)
    requires forall x :: x in s ==> x in brs
    ensures forall x :: x in r <==> x in s
    ensures multiset(r) == multiset(s)
    ensures NonIncreasing(r, brs)
  {
    if |s| == 0 then []
    else
      assert s == [s[0]] + s[1..];
      InsertBySizePermutes(s[0], SortBySize(s[1..], brs), brs);
      InsertBySize(s[0], SortBySize(s[1..], brs), brs)
  }

  /** `_arrangeBranches`: the branch keys in insertion order, or, when
      arranging, a permutation of them with non-increasing group sizes. */
  function ArrangeBranches(keys: seq<string>, brs: map<string, seq<CSet>>, arrange: bool): (r: seq<string>)
    requires forall k :: k in keys ==> k in brs
    ensures multiset(r) == multiset(keys)
    ensures |r| == |keys|
    ensures forall k :: k in r <==> k in keys
    ensures arrange ==> NonIncreasing(r, brs)
    ensures !arrange ==> r == keys
  {
    var r := if arrange then SortBySize(keys, brs) else keys;
    assert |r| == |multiset(r)| == |multiset(keys)| == |keys|;
    assert forall k :: k in r <==> k in multiset(r);
    r
  }

  // ---------------------------------------------------------------------
  // The whole graph
  // ---------------------------------------------------------------------

  /** The label `_generateSubgraphs` writes on a link of `brLinks`. */
  function KindName(k: Kind): string
  {
    match k
    case BR => "BR"
    case H => "H"
    case M => "M"
  }

  /** The dashed link drawn for one entry of `brLinks`. */
  function Dashed(e: Edge): GvLink
  {
    LinkBetween(e.start, e.end, KindName(e.kind))
  }

  /** The dashed cross-branch links: one per entry of `brLinks`, and when
      every link is filed under its own ends, no two entries draw the same
      link. */
  function CrossLinks(links: Links): (r: set<GvLink>)
    ensures |r| <= |links|
    ensures KeyedByEnds(links) ==> |r| == |links|
    ensures forall k :: k in links ==> Dashed(links[k]) in r
    ensures forall g :: g in r ==> exists k :: k in links && g == Dashed(links[k])
  {
    DashedCard(links);
    set k | k in links :: Dashed(links[k])
  }

  /** Counting the dashed links of `links`: at most one per entry, and
      exactly one when entries are keyed by their ends. */
  lemma {:induction false} DashedCard(links: Links)
    ensures |set k | k in links :: Dashed(links[k])| <= |links|
    ensures KeyedByEnds(links) ==> |set k | k in links :: Dashed(links[k])| == |links|
    decreases |links|
  {
    if |links| > 0 {
      var k :| k in links;
      var rest := links - {k};
      DashedCard(rest);
      DashedSplit(links, k);
      if KeyedByEnds(links) {
        assert KeyedByEnds(rest);
      }
    }
  }

  /** The dashed links of `links` are those of the other entries plus the
      one of entry `k`. */
  lemma DashedSplit(links: Links, k: string)
    requires k in links
    ensures var rest := links - {k};
      (set x | x in links :: Dashed(links[x])) == (set x | x in rest :: Dashed(rest[x])) + {Dashed(links[k])}
    ensures KeyedByEnds(links) ==> Dashed(links[k]) !in set x | x in links - {k} :: Dashed((links - {k})[x])
  {
    var rest := links - {k};
    var all := set x | x in links :: Dashed(links[x]);
    var part := set x | x in rest :: Dashed(rest[x]);
    forall g | g in all ensures g in part + {Dashed(links[k])} {
      var x :| x in links && g == Dashed(links[x]);
      if x != k {
        assert x in rest && rest[x] == links[x];
      }
    }
    forall g | g in part ensures g in all {
      var x :| x in rest && g == Dashed(rest[x]);
      assert x in links && rest[x] == links[x];
    }
    if KeyedByEnds(links) {
      DashedDistinct(links, k);
    }
  }

  /** Entries keyed by their ends draw distinct links. */
  lemma DashedDistinct(links: Links, k: string)
    requires KeyedByEnds(links) && k in links
    ensures forall x :: x in links && x != k ==> Dashed(links[x]) != Dashed(links[k])
  {
    forall x | x in links && x != k ensures Dashed(links[x]) != Dashed(links[k]) {
      assert EdgeKey(links[x]) != EdgeKey(links[k]);
    }
  }

  /** The branch keys of a run of subgraphs, in order. */
  function Titles(subs: seq<Subgraph>): (r: seq<string>)
    ensures |r| == |subs| && forall i :: 0 <= i < |subs| ==> r[i] == subs[i].title
  {
    seq(|subs|, i requires 0 <= i < |subs| => subs[i].title)
  }

  /** The subgraphs of the keys in `order`, coloured with `colors`. */
  function Subgraphs(cfg: Config, order: seq<string>, brs: map<string, seq<CSet>>, colors: seq<string>): (r: seq<Subgraph>)
    requires forall k :: k in order ==> k in brs
    requires |colors| == |order|
    ensures Titles(r) == order
    ensures forall i :: 0 <= i < |r| ==> r[i].color == colors[i]
    ensures forall i :: 0 <= i < |r| ==> r[i] == BranchSubgraph(cfg, r[i].title, brs[r[i].title], r[i].color)
  {
    seq(|order|, i requires 0 <= i < |order| => BranchSubgraph(cfg, order[i], brs[order[i]], colors[i]))
  }

  /** `_generateSubgraphs`: one subgraph per branch key, each with the next
      palette colour; when arranging, larger groups come first. The
      palette counter `cur` is the renderer's state; the new one is
      returned. */
  function GenerateSubgraphs(t: Topology, cfg: Config, cur: nat): (r: (seq<Subgraph>, nat))
    requires forall k :: k in t.keys ==> k in t.brs
    requires |t.keys| > 0 ==> |cfg.colors| > 0
    ensures forall i :: 0 <= i < |r.0| ==> r.0[i].title in t.brs
    ensures forall i :: 0 <= i < |r.0| ==> r.0[i] == BranchSubgraph(cfg, r.0[i].title, t.brs[r.0[i].title], r.0[i].color)
    ensures Titles(r.0) == ArrangeBranches(t.keys, t.brs, cfg.arrange)
    ensures cur <= |cfg.colors| ==> forall i :: 0 <= i < |r.0| ==> r.0[i].color == cfg.colors[(cur + i) % |cfg.colors|]
    ensures |t.keys| == 0 ==> r.1 == cur
    ensures |t.keys| > 0 ==> 1 <= r.1 <= |cfg.colors|
  {
    var order := ArrangeBranches(t.keys, t.brs, cfg.arrange);
    var drawn := Draw(cfg.colors, cur, |order|);
    var subs := Subgraphs(cfg, order, t.brs, drawn.0);
    assert cur <= |cfg.colors| ==> forall i :: 0 <= i < |subs| ==> subs[i].color == cfg.colors[(cur + i) % |cfg.colors|] by {
      if cur <= |cfg.colors| && |order| > 0 {
        DrawRoundRobin(cfg.colors, cur, |order|);
      }
    }
    (subs, drawn.1)
  }

  /** The subgraphs come one per branch key: in key order, or, when
      arranging, larger groups first. */
  lemma SubgraphOrder(t: Topology, cfg: Config, cur: nat)
    requires forall k :: k in t.keys ==> k in t.brs
    requires |t.keys| > 0 ==> |cfg.colors| > 0
    ensures var subs := GenerateSubgraphs(t, cfg, cur).0;
      && multiset(Titles(subs)) == multiset(t.keys)
      && (!cfg.arrange ==> Titles(subs) == t.keys)
      && (cfg.arrange ==> NonIncreasing(Titles(subs), t.brs))
  {
  }

  /** What `dumpGraph` renders: the nodes, the branch subgraphs and the
      cross-branch links. */
  datatype Graph = Graph(nodes: map<string, Node>, subgraphs: seq<Subgraph>, crossLinks: set<GvLink>)

  /** `dumpGraph`, with the palette counter threaded through: one node per
      revision it draws, one subgraph per branch key, one dashed link per
      entry of `brLinks`. */
  function DumpGraph(t: Topology, cfg: Config, cur: nat): (r: (Graph, nat))
    requires FiledByRev(t.tails) && FiledByRev(t.tips)
    requires forall k :: k in t.keys ==> k in t.brs
    requires |t.keys| > 0 ==> |cfg.colors| > 0
    ensures r.0.nodes.Keys == t.tails.Keys + t.tips.Keys + Revs(Members(t.keys, t.brs)) + Revs(t.leaves)
    ensures forall k :: k in r.0.nodes ==> r.0.nodes[k].name == NodeName(k)
    ensures |r.0.subgraphs| == |t.keys| && multiset(Titles(r.0.subgraphs)) == multiset(t.keys)
    ensures KeyedByEnds(t.links) ==> |r.0.crossLinks| == |t.links|
    ensures |t.keys| == 0 ==> r.1 == cur
    ensures |t.keys| > 0 ==> 1 <= r.1 <= |cfg.colors|
    ensures r.0.nodes == GenerateNodes(t, cfg)
    ensures (r.0.subgraphs, r.1) == GenerateSubgraphs(t, cfg, cur)
    ensures r.0.crossLinks == CrossLinks(t.links)
  {
    var (subs, next) := GenerateSubgraphs(t, cfg, cur);
    (Graph(GenerateNodes(t, cfg), subs, CrossLinks(t.links)), next)
  }

  /** A topology built by `buildChangeSets` can always be rendered: its
      tails and tips are filed under their own revisions, and every branch
      key has a group. */
  lemma BuiltTopologyRenders(store: Store, source: Source, csets: seq<CSet>)
    requires Buildable(Ingested(store, source, csets), csets)
    ensures var t := BuildChangeSets(store, source, csets);
      FiledByRev(t.tails) && FiledByRev(t.tips) && KeyedByEnds(t.links)
      && forall k :: k in t.keys ==> k in t.brs
  {
    var t := BuildChangeSets(store, source, csets);
    var env := Ingested(store, source, csets);
    AttachTails(env, t.keys, t.brs);
    AttachTips(env, t.keys, t.brs);
    AttachParts(env, t.keys, t.brs);
    InsertAllKeyed(map[], AttachContribution(env, t.keys, t.brs).edges);
  }
}

=== FILE: strings.dfy ===
/** The few string operations of Python that the graph builder relies on:
    `str.split` with a one-character separator, `x.split(sep)[0]`, and the
    code-point lexicographic order of `<` on `str`. */
module Strings {

  /** Python's `s.split(sep)` for a one-character separator: every occurrence
      of `sep` ends a field, so the result is never empty and `"".split(" ")`
      is `[""]`. The first field is the longest sep-free prefix of `s`. */
  function Split(s: string, sep: char): (r: seq<string>)
    ensures |r| >= 1
    ensures forall i :: 0 <= i < |r| ==> sep !in r[i]
    ensures r[0] <= s && (|r[0]| < |s| ==> s[|r[0]|] == sep)
    decreases |s|
  {
    if |s| == 0 then [""]
    else
      var rest := Split(s[1..], sep);
      if s[0] == sep then [""] + rest
      else [[s[0]] + rest[0]] + rest[1..]
  }

  /** Python's `sep.join(parts)`. */
  function Join(parts: seq<string>, sep: char): string
    decreases |parts|
  {
    if |parts| == 0 then ""
    else if |parts| == 1 then parts[0]
    else parts[0] + [sep] + Join(parts[1..], sep)
  }

  /** `s.split(sep)[0]`: the part of `s` before its first `sep`. */
  function FirstField(s: string, sep: char): (r: string)
    ensures r <= s
    ensures sep !in r
    ensures |r| < |s| ==> s[|r|] == sep
    ensures sep !in s ==> r == s
  {
    Split(s, sep)[0]
  }

  /** Joining the fields of a split gives back the original string. */
  lemma {:induction false} JoinSplit(s: string, sep: char)
    ensures Join(Split(s, sep), sep) == s
    decreases |s|
  {
    if |s| > 0 {
      var rest := Split(s[1..], sep);
      JoinSplit(s[1..], sep);
      if s[0] != sep && |rest| > 1 {
        assert Join(rest, sep) == rest[0] + [sep] + Join(rest[1..], sep);
        assert Split(s, sep) == [[s[0]] + rest[0]] + rest[1..];
        assert Join(Split(s, sep), sep) == [s[0]] + rest[0] + [sep] + Join(rest[1..], sep);
        assert s == [s[0]] + s[1..];
      } else {
        assert s == [s[0]] + s[1..];
      }
    }
  }

  /** A string without the separator is one field. */
  lemma {:induction false} SplitWithoutSep(s: string, sep: char)
    requires sep !in s
    ensures Split(s, sep) == [s]
    decreases |s|
  {
    if |s| > 0 {
      SplitWithoutSep(s[1..], sep);
      assert s == [s[0]] + s[1..];
    }
  }

  /** A sep-free field followed by the separator splits off as the first field. */
  lemma {:induction false} SplitFieldThenSep(a: string, sep: char, t: string)
    requires sep !in a
    ensures Split(a + [sep] + t, sep) == [a] + Split(t, sep)
    decreases |a|
  {
    if |a| > 0 {
      SplitFieldThenSep(a[1..], sep, t);
      assert (a + [sep] + t)[1..] == a[1..] + [sep] + t;
      assert a == [a[0]] + a[1..];
    } else {
      assert (a + [sep] + t)[1..] == t;
    }
  }

  /** Splitting a join of sep-free fields gives back the fields. */
  lemma {:induction false} SplitJoin(parts: seq<string>, sep: char)
    requires |parts| >= 1
    requires forall i :: 0 <= i < |parts| ==> sep !in parts[i]
    ensures Split(Join(parts, sep), sep) == parts
    decreases |parts|
  {
    if |parts| == 1 {
      SplitWithoutSep(parts[0], sep);
    } else {
      SplitJoin(parts[1..], sep);
      SplitFieldThenSep(parts[0], sep, Join(parts[1..], sep));
      assert parts == [parts[0]] + parts[1..];
    }
  }

  /** Python's `a < b` on `str`: lexicographic by code point, a proper
      prefix before any extension of it. */
  predicate Less(a: string, b: string)
    decreases |a|
  {
    |b| > 0 && (|a| == 0 || a[0] < b[0] || (a[0] == b[0] && Less(a[1..], b[1..])))
  }

  /** Python's `a <= b` on `str`. */
  predicate LessEq(a: string, b: string)
  {
    a == b || Less(a, b)
  }

  lemma {:induction false} LessIrreflexive(a: string)
    ensures !Less(a, a)
    decreases |a|
  {
    if |a| > 0 {
      LessIrreflexive(a[1..]);
    }
  }

  lemma {:induction false} LessTransitive(a: string, b: string, c: string)
    requires Less(a, b) && Less(b, c)
    ensures Less(a, c)
    decreases |a|
  {
    if |a| > 0 && a[0] == b[0] && b[0] == c[0] {
      LessTransitive(a[1..], b[1..], c[1..]);
    }
  }

  lemma {:induction false} LessTotal(a: string, b: string)
    ensures a == b || Less(a, b) || Less(b, a)
    decreases |a|
  {
    if |a| > 0 && |b| > 0 && a[0] == b[0] {
      LessTotal(a[1..], b[1..]);
      assert a == [a[0]] + a[1..];
      assert b == [b[0]] + b[1..];
    }
  }

  lemma LessAsymmetric(a: string, b: string)
    requires Less(a, b)
    ensures !Less(b, a)
  {
    if Less(b, a) {
      LessTransitive(a, b, a);
      LessIrreflexive(a);
    }
  }

  lemma LessEqTransitive(a: string, b: string, c: string)
    requires LessEq(a, b) && LessEq(b, c)
    ensures LessEq(a, c)
  {
    if Less(a, b) && Less(b, c) {
      LessTransitive(a, b, c);
    }
  }
}

=== FILE: topology.dfy ===
/** `HgGraph`: the deduplicated link map, the per-changeset attachment
    helpers and `buildChangeSets` (hggraph.py lines 378-552). */
module Topology {
  import opened Wrappers
  import opened ChangeSets
  import opened Classify
  import opened Grouping

  /** The link labels `buildChangeSets` passes: "BR" for both branch origins
      and branch-offs, "H" for tips, "M" for merges. */
  datatype Kind = BR | H | M

  /** One entry of `brLinks`, the tuple `(start, end, type)`. */
  datatype Edge = Edge(start: CSet, end: CSet, kind: Kind)

  type Links = map<string, Edge>

  /** The key `_addBrLinkIfNotExist` files a link under: the two revisions
      concatenated in order, so `("1", "23")` and `("12", "3")` share a key. */
  function LinkKey(start: CSet, end: CSet): string
  {
    start.rev + end.rev
  }

  function EdgeKey(e: Edge): string
  {
    LinkKey(e.start, e.end)
  }

  function KeysOf(es: seq<Edge>): set<string>
  {
    set e | e in es :: EdgeKey(e)
  }

  /** `_addBrLinkIfNotExist`: a key already present keeps its link, whatever
      kind the new one has; otherwise exactly that key is added. */
  function AddBrLinkIfNotExist(links: Links, start: CSet, end: CSet, kind: Kind): (r: Links)
    ensures r.Keys == links.Keys + {LinkKey(start, end)}
    ensures forall k :: k in links ==> r[k] == links[k]
    ensures LinkKey(start, end) !in links ==> r[LinkKey(start, end)] == Edge(start, end, kind)
  {
    var key := start.rev + end.rev;
    if key in links then links else links[key := Edge(start, end, kind)]
  }

  /** Offering the edges `es` to `_addBrLinkIfNotExist` one after another. */
  function InsertAll(links: Links, es: seq<Edge>): Links
    decreases |es|
  {
    if |es| == 0 then links
    else InsertAll(AddBrLinkIfNotExist(links, es[0].start, es[0].end, es[0].kind), es[1..])
  }

  lemma {:induction false} InsertAllAppend(links: Links, a: seq<Edge>, b: seq<Edge>)
    ensures InsertAll(links, a + b) == InsertAll(InsertAll(links, a), b)
    decreases |a|
  {
    if |a| > 0 {
      assert (a + b)[1..] == a[1..] + b;
      InsertAllAppend(AddBrLinkIfNotExist(links, a[0].start, a[0].end, a[0].kind), a[1..], b);
    } else {
      assert a + b == b;
    }
  }

  /** The first edge of `es` filed under key `k`. */
  function FirstWithKey(es: seq<Edge>, k: string): (e: Edge)
    requires k in KeysOf(es)
    ensures e in es && EdgeKey(e) == k
    ensures exists i :: 0 <= i < |es| && es[i] == e && forall j :: 0 <= j < i ==> EdgeKey(es[j]) != k
    decreases |es|
  {
    if EdgeKey(es[0]) == k then es[0]
    else
      assert k in KeysOf(es[1..]) by {
        var e :| e in es && EdgeKey(e) == k;
        assert e != es[0];
        assert e in es[1..];
      }
      var e := FirstWithKey(es[1..], k);
      ghost var i :| 0 <= i < |es[1..]| && es[1..][i] == e && forall j :: 0 <= j < i ==> EdgeKey(es[1..][j]) != k;
      assert es[i + 1] == e;
      assert forall j :: 0 <= j < i + 1 ==> EdgeKey(es[j]) != k by {
        forall j | 0 <= j < i + 1 ensures EdgeKey(es[j]) != k {
          if j > 0 { assert es[j] == es[1..][j - 1]; }
        }
      }
      e
  }

  /** First insertion wins: after offering `es`, the link map holds the old
      entries unchanged and, for every new key, the first edge offered under
      it. */
  lemma {:induction false} InsertAllFirstWins(links: Links, es: seq<Edge>)
    ensures InsertAll(links, es).Keys == links.Keys + KeysOf(es)
    ensures forall k :: k in links ==> InsertAll(links, es)[k] == links[k]
    ensures forall k :: k in KeysOf(es) && k !in links ==> InsertAll(links, es)[k] == FirstWithKey(es, k)
    decreases |es|
  {
    if |es| > 0 {
      var links' := AddBrLinkIfNotExist(links, es[0].start, es[0].end, es[0].kind);
      var r := InsertAll(links, es);
      assert r == InsertAll(links', es[1..]);
      InsertAllFirstWins(links', es[1..]);
      KeysOfCons(es);
      forall k | k in KeysOf(es) && k !in links
        ensures r[k] == FirstWithKey(es, k)
      {
        if k != EdgeKey(es[0]) {
          assert k in KeysOf(es[1..]);
          assert FirstWithKey(es, k) == FirstWithKey(es[1..], k);
        }
      }
    }
  }

  lemma KeysOfCons(es: seq<Edge>)
    requires |es| > 0
    ensures KeysOf(es) == {EdgeKey(es[0])} + KeysOf(es[1..])
  {
    assert forall e :: e in es <==> e == es[0] || e in es[1..];
  }

  /** Of two edges offered in turn under one key, only the first is kept. */
  lemma {:induction false} FirstWithKeyOfPrefix(a: seq<Edge>, b: seq<Edge>, k: string)
    requires k in KeysOf(a)
    ensures k in KeysOf(a + b) && FirstWithKey(a + b, k) == FirstWithKey(a, k)
    decreases |a|
  {
    assert forall e :: e in a ==> e in a + b;
    if EdgeKey(a[0]) != k {
      assert (a + b)[0] == a[0];
      assert (a + b)[1..] == a[1..] + b;
      assert k in KeysOf(a[1..]) by {
        var e :| e in a && EdgeKey(e) == k;
        assert e in a[1..];
      }
      FirstWithKeyOfPrefix(a[1..], b, k);
    }
  }

  /** Every link is filed under the key of its own two ends, as
      `_addBrLinkIfNotExist` files them. */
  ghost predicate KeyedByEnds(links: Links)
  {
    forall k :: k in links ==> k == EdgeKey(links[k])
  }

  lemma {:induction false} InsertAllKeyed(links: Links, es: seq<Edge>)
    requires KeyedByEnds(links)
    ensures KeyedByEnds(InsertAll(links, es))
    decreases |es|
  {
    if |es| > 0 {
      InsertAllKeyed(AddBrLinkIfNotExist(links, es[0].start, es[0].end, es[0].kind), es[1..]);
    }
  }

  /** Edges offered under other keys first do not change which edge is
      first under `k`. */
  lemma {:induction false} FirstWithKeyOfSuffix(a: seq<Edge>, b: seq<Edge>, k: string)
    requires k !in KeysOf(a) && k in KeysOf(b)
    ensures k in KeysOf(a + b) && FirstWithKey(a + b, k) == FirstWithKey(b, k)
    decreases |a|
  {
    assert forall e :: e in b ==> e in a + b;
    if |a| == 0 {
      assert a + b == b;
    } else {
      assert (a + b)[0] == a[0];
      assert EdgeKey(a[0]) != k by { assert a[0] in a; }
      assert (a + b)[1..] == a[1..] + b;
      assert k !in KeysOf(a[1..]) by {
        forall e | e in a[1..] ensures EdgeKey(e) != k {
          assert e in a;
        }
      }
      FirstWithKeyOfSuffix(a[1..], b, k);
    }
  }

  /** Of four runs of offers, a key the first run lacks and the second
      offers is first offered by the second. */
  lemma FirstWithKeyInSecond(o: seq<Edge>, t: seq<Edge>, m: seq<Edge>, b: seq<Edge>, k: string)
    requires k !in KeysOf(o) && k in KeysOf(t)
    ensures k in KeysOf(o + t + m + b) && FirstWithKey(o + t + m + b, k) == FirstWithKey(t, k)
  {
    assert o + t + m + b == o + (t + (m + b));
    FirstWithKeyOfPrefix(t, m + b, k);
    FirstWithKeyOfSuffix(o, t + (m + b), k);
  }

  /** A changeset carrying only a revision and a branch, as `CSet(rev=...,
      branch=...)` builds one. */
  function Bare(rev: string, branch: string): CSet
  {
    CSet(branch, "", "", "", "", "", rev, "", "", "", "", "")
  }

  /** The ordered key concatenation makes the links `1 -> 23` and `12 -> 3`
      collide: the second is silently dropped. */
  lemma LinkKeyCollision()
    ensures var a := Edge(Bare("1", "x"), Bare("23", "y"), M);
      var b := Edge(Bare("12", "x"), Bare("3", "y"), BR);
      a != b && EdgeKey(a) == EdgeKey(b) && InsertAll(map[], [a, b]) == map["123" := a]
  {
    var a := Edge(Bare("1", "x"), Bare("23", "y"), M);
    var b := Edge(Bare("12", "x"), Bare("3", "y"), BR);
    assert EdgeKey(a) == "123";
    assert EdgeKey(b) == "123";
    var m1 := AddBrLinkIfNotExist(map[], a.start, a.end, a.kind);
    assert m1 == map["123" := a];
    assert [a, b][1..] == [b];
    assert InsertAll(map[], [a, b]) == InsertAll(m1, [b]);
    assert InsertAll(m1, [b]) == InsertAll(AddBrLinkIfNotExist(m1, b.start, b.end, b.kind), []);
  }

  /** The synthetic node `_addBranchTip` hangs after a branch's last
      changeset: `CSet(rev=l.rev + "Tip", branch="Tip")`. */
  function TipOf(l: CSet): (r: CSet)
    ensures r.branch == "Tip" && r.children == "" && r.tags == ""
    ensures r.rev == l.rev + "Tip"
    ensures |r.rev| == |l.rev| + 3 && r.rev[..|l.rev|] == l.rev && r.rev != l.rev
  {
    Bare(l.rev + "Tip", "Tip")
  }

  /** The parents of `l` that resolve to a branch other than `b`, p1 first,
      as `_addSourceParentBranch` and `_addParentBranch` pick them. */
  function ForeignParents(env: Env, b: string, l: CSet): (r: seq<CSet>)
    ensures |r| == (if env.Resolve(l.p1rev).Some? && env.Resolve(l.p1rev).value.branch != b then 1 else 0)
                 + (if env.Resolve(l.p2rev).Some? && env.Resolve(l.p2rev).value.branch != b then 1 else 0)
    ensures env.Resolve(l.p1rev).Some? && env.Resolve(l.p1rev).value.branch != b ==> r[0] == env.Resolve(l.p1rev).value
    ensures env.Resolve(l.p2rev).Some? && env.Resolve(l.p2rev).value.branch != b ==> r[|r| - 1] == env.Resolve(l.p2rev).value
    ensures forall p :: p in r <==>
      p.branch != b && (env.Resolve(l.p1rev) == Some(p) || env.Resolve(l.p2rev) == Some(p))
    ensures l.p1rev == NoParentRev && l.p2rev == NoParentRev ==> r == []
  {
    var p1 := env.Resolve(l.p1rev);
    var p2 := env.Resolve(l.p2rev);
    (if p1.Some? && p1.value.branch != b then [p1.value] else [])
      + (if p2.Some? && p2.value.branch != b then [p2.value] else [])
  }

  /** The children revisions of `revs` that resolve to a branch other than
      `branch`, in order. */
  function ResolveOff(env: Env, revs: seq<string>, branch: string): (r: seq<CSet>)
    ensures forall c :: c in r <==> exists x :: x in revs && env.Resolve(x) == Some(c) && c.branch != branch
    decreases |revs|
  {
    if |revs| == 0 then []
    else
      assert forall x :: x in revs <==> x == revs[0] || x in revs[1..];
      var d := env.Resolve(revs[0]);
      (if d.Some? && d.value.branch != branch then [d.value] else []) + ResolveOff(env, revs[1..], branch)
  }

  /** The children `_addBranchingLinks` links to: every token of the
      unguarded children list that resolves to another branch. */
  function ForeignChildren(env: Env, l: CSet): seq<CSet>
  {
    ResolveOff(env, ChildTokens(l), l.branch)
  }

  /** With an empty children string `_addBranchingLinks` looks up the
      revision `""`, and links to whatever that resolves to on another
      branch. */
  lemma EmptyChildrenLooksUpEmptyRev(env: Env, l: CSet)
    requires l.children == ""
    ensures ForeignChildren(env, l) ==
      (if env.Resolve("").Some? && env.Resolve("").value.branch != l.branch then [env.Resolve("").value] else [])
  {
    ChildTokensOfNoChildren(l);
  }

  /** The edges `p -> l` for every `p` of `ps`. */
  function Into(ps: seq<CSet>, l: CSet, kind: Kind): (r: seq<Edge>)
    ensures |r| == |ps| && forall i :: 0 <= i < |ps| ==> r[i] == Edge(ps[i], l, kind)
  {
    seq(|ps|, i requires 0 <= i < |ps| => Edge(ps[i], l, kind))
  }

  /** The edges `l -> c` for every `c` of `cs`. */
  function OutOf(l: CSet, cs: seq<CSet>, kind: Kind): (r: seq<Edge>)
    ensures |r| == |cs| && forall i :: 0 <= i < |cs| ==> r[i] == Edge(l, cs[i], kind)
  {
    seq(|cs|, i requires 0 <= i < |cs| => Edge(l, cs[i], kind))
  }

  /** The mutable fields of `HgGraph` that the attachment steps fill. */
  datatype BuildState = BuildState(
    links: Links,                 // brLinks
    tails: map<string, CSet>,     // tailCsets
    tips: map<string, CSet>,      // tipCsets
    leaves: seq<CSet>)            // leafCsets

  const Fresh: BuildState := BuildState(map[], map[], map[], [])

  /** What one step adds, as data: edges offered to `brLinks` in order, and
      changesets written to `tailCsets`, `tipCsets` and `leafCsets`. */
  datatype Contribution = Contribution(edges: seq<Edge>, tails: seq<CSet>, tips: seq<CSet>, leaves: seq<CSet>)

  const Nothing: Contribution := Contribution([], [], [], [])

  function Combine(a: Contribution, b: Contribution): Contribution
  {
    Contribution(a.edges + b.edges, a.tails + b.tails, a.tips + b.tips, a.leaves + b.leaves)
  }

  /** Applies a contribution in one go: first-insert-wins for links,
      last-write-wins for the tail and tip maps, append for leaves. */
  function Apply(st: BuildState, c: Contribution): BuildState
  {
    BuildState(InsertAll(st.links, c.edges), Record(st.tails, c.tails, Self),
               Record(st.tips, c.tips, Self), st.leaves + c.leaves)
  }

  lemma ApplyCombine(st: BuildState, a: Contribution, b: Contribution)
    ensures Apply(Apply(st, a), b) == Apply(st, Combine(a, b))
  {
    InsertAllAppend(st.links, a.edges, b.edges);
    RecordAppend(st.tails, a.tails, b.tails, Self);
    RecordAppend(st.tips, a.tips, b.tips, Self);
    assert (st.leaves + a.leaves) + b.leaves == st.leaves + (a.leaves + b.leaves);
  }

  /** The changesets and edges `_addSourceParentBranch` adds for `l`. */
  function OriginContribution(env: Env, b: string, l: CSet, kind: Kind): Contribution
  {
    var ps := ForeignParents(env, b, l);
    Contribution(Into(ps, l, kind), ps, [], [])
  }

  /** The changesets and edges `_addParentBranch` adds for `l`. */
  function MergeContribution(env: Env, b: string, l: CSet, kind: Kind): Contribution
  {
    var ps := ForeignParents(env, b, l);
    Contribution(Into(ps, l, kind), [], [], ps)
  }

  /** The synthetic tip and edge `_addBranchTip` adds for `l`. */
  function TipContribution(env: Env, l: CSet, kind: Kind): Contribution
  {
    if IsTip(env, l) then Contribution([Edge(l, TipOf(l), kind)], [], [TipOf(l)], []) else Nothing
  }

  /** The children and edges `_addBranchingLinks` adds for `l`. */
  function BranchOffContribution(env: Env, l: CSet, kind: Kind): Contribution
  {
    var cs := ForeignChildren(env, l);
    Contribution(OutOf(l, cs, kind), [], [], cs)
  }

  lemma ApplyNothing(st: BuildState)
    ensures Apply(st, Nothing) == st
  {
    assert st.leaves + [] == st.leaves;
  }

  /** Offering one edge, writing one tail, tip or leaf. */
  lemma ApplySingle(st: BuildState, e: Edge, tails: seq<CSet>, tips: seq<CSet>, leaves: seq<CSet>)
    requires |tails| <= 1 && |tips| <= 1 && |leaves| <= 1
    ensures Apply(st, Contribution([e], tails, tips, leaves)) ==
      BuildState(AddBrLinkIfNotExist(st.links, e.start, e.end, e.kind),
                 if |tails| == 1 then st.tails[tails[0].rev := tails[0]] else st.tails,
                 if |tips| == 1 then st.tips[tips[0].rev := tips[0]] else st.tips,
                 st.leaves + leaves)
  {
    assert [e][1..] == [];
    assert InsertAll(st.links, [e]) == InsertAll(AddBrLinkIfNotExist(st.links, e.start, e.end, e.kind), []);
    if |tails| == 1 {
      assert tails[1..] == [];
      assert Record(st.tails, tails, Self) == Record(st.tails[tails[0].rev := tails[0]], [], Self);
    }
    if |tips| == 1 {
      assert tips[1..] == [];
      assert Record(st.tips, tips, Self) == Record(st.tips[tips[0].rev := tips[0]], [], Self);
    }
  }

  /** The contribution of one parent that is foreign to `b`, written to the
      tails (`asTail`) or the leaves. */
  function ParentPart(p: Option<CSet>, b: string, l: CSet, kind: Kind, asTail: bool): Contribution
  {
    if p.Some? && p.value.branch != b then
      if asTail then Contribution([Edge(p.value, l, kind)], [p.value], [], [])
      else Contribution([Edge(p.value, l, kind)], [], [], [p.value])
    else Nothing
  }

  lemma ParentParts(env: Env, b: string, l: CSet, kind: Kind)
    ensures OriginContribution(env, b, l, kind) ==
      Combine(ParentPart(env.Resolve(l.p1rev), b, l, kind, true), ParentPart(env.Resolve(l.p2rev), b, l, kind, true))
    ensures MergeContribution(env, b, l, kind) ==
      Combine(ParentPart(env.Resolve(l.p1rev), b, l, kind, false), ParentPart(env.Resolve(l.p2rev), b, l, kind, false))
  {
  }

  /** One foreign parent handled as `_addSourceParentBranch` does. */
  function AddTail(st: BuildState, p: CSet, l: CSet, kind: Kind): BuildState
  {
    st.(links := AddBrLinkIfNotExist(st.links, p, l, kind), tails := st.tails[p.rev := p])
  }

  /** `_addSourceParentBranch(b, l, type)`. */
  function AddSourceParentBranch(env: Env, st: BuildState, b: string, l: CSet, kind: Kind): (r: BuildState)
    ensures r == Apply(st, OriginContribution(env, b, l, kind))
  {
    var p1 := env.Resolve(l.p1rev);
    var p2 := env.Resolve(l.p2rev);
    var s1 := if p1.Some? && p1.value.branch != b then AddTail(st, p1.value, l, kind) else st;
    var r := if p2.Some? && p2.value.branch != b then AddTail(s1, p2.value, l, kind) else s1;
    ghost var c1 := ParentPart(p1, b, l, kind, true);
    ghost var c2 := ParentPart(p2, b, l, kind, true);
    assert s1 == Apply(st, c1) by {
      if c1 == Nothing { ApplyNothing(st); } else { ApplySingle(st, c1.edges[0], c1.tails, [], []); }
    }
    assert r == Apply(s1, c2) by {
      if c2 == Nothing { ApplyNothing(s1); } else { ApplySingle(s1, c2.edges[0], c2.tails, [], []); }
    }
    ApplyCombine(st, c1, c2);
    ParentParts(env, b, l, kind);
    r
  }

  /** One foreign parent handled as `_addParentBranch` does. */
  function AddLeafParent(st: BuildState, p: CSet, l: CSet, kind: Kind): BuildState
  {
    st.(links := AddBrLinkIfNotExist(st.links, p, l, kind), leaves := st.leaves + [p])
  }

  /** `_addParentBranch(b, l, type)`. */
  function AddParentBranch(env: Env, st: BuildState, b: string, l: CSet, kind: Kind): (r: BuildState)
    ensures r == Apply(st, MergeContribution(env, b, l, kind))
  {
    var p1 := env.Resolve(l.p1rev);
    var p2 := env.Resolve(l.p2rev);
    var s1 := if p1.Some? && p1.value.branch != b then AddLeafParent(st, p1.value, l, kind) else st;
    var r := if p2.Some? && p2.value.branch != b then AddLeafParent(s1, p2.value, l, kind) else s1;
    ghost var c1 := ParentPart(p1, b, l, kind, false);
    ghost var c2 := ParentPart(p2, b, l, kind, false);
    assert s1 == Apply(st, c1) by {
      if c1 == Nothing { ApplyNothing(st); } else { ApplySingle(st, c1.edges[0], [], [], c1.leaves); }
    }
    assert r == Apply(s1, c2) by {
      if c2 == Nothing { ApplyNothing(s1); } else { ApplySingle(s1, c2.edges[0], [], [], c2.leaves); }
    }
    ApplyCombine(st, c1, c2);
    ParentParts(env, b, l, kind);
    r
  }

  /** `_addBranchTip(b, l, type)`. */
  function AddBranchTip(env: Env, st: BuildState, b: string, l: CSet, kind: Kind): (r: BuildState)
    ensures r == Apply(st, TipContribution(env, l, kind))
  {
    if !IsTip(env, l) then
      ApplyNothing(st);
      st
    else
      var tip := TipOf(l);
      ApplySingle(st, Edge(l, tip, kind), [], [tip], []);
      st.(links := AddBrLinkIfNotExist(st.links, l, tip, kind), tips := st.tips[tip.rev := tip])
  }

  /** The second loop of `_addBranchingLinks`: link `l` to each child and
      append the child to the leaves. */
  function LinkChildren(st: BuildState, l: CSet, cs: seq<CSet>, kind: Kind): (r: BuildState)
    ensures r == Apply(st, Contribution(OutOf(l, cs, kind), [], [], cs))
    decreases |cs|
  {
    if |cs| == 0 then
      assert st.leaves + cs == st.leaves;
      st
    else
      var s1 := st.(links := AddBrLinkIfNotExist(st.links, l, cs[0], kind), leaves := st.leaves + [cs[0]]);
      var r := LinkChildren(s1, l, cs[1..], kind);
      ghost var c1 := Contribution([Edge(l, cs[0], kind)], [], [], [cs[0]]);
      ghost var c2 := Contribution(OutOf(l, cs[1..], kind), [], [], cs[1..]);
      assert s1 == Apply(st, c1) by {
        ApplySingle(st, Edge(l, cs[0], kind), [], [], [cs[0]]);
      }
      assert Combine(c1, c2) == Contribution(OutOf(l, cs, kind), [], [], cs) by {
        assert OutOf(l, cs, kind) == [Edge(l, cs[0], kind)] + OutOf(l, cs[1..], kind);
        assert cs == [cs[0]] + cs[1..];
      }
      ApplyCombine(st, c1, c2);
      r
  }

  /** `_addBranchingLinks(b, l, type)`. */
  function AddBranchingLinks(env: Env, st: BuildState, b: string, l: CSet, kind: Kind): (r: BuildState)
    ensures r == Apply(st, BranchOffContribution(env, l, kind))
  {
    var children := ForeignChildren(env, l);
    if |children| == 0 then
      assert st.leaves + [] == st.leaves;
      st
    else LinkChildren(st, l, children, kind)
  }

  /** The four loops of `buildChangeSets`, with the label each passes. */
  datatype Step = AttachOrigin | AttachTip | AttachMerge | AttachBranchOff

  /** One visit of a loop body: branch key and changeset. */
  type Visit = (string, CSet)

  function Run(env: Env, step: Step, st: BuildState, v: Visit): BuildState
  {
    match step
    case AttachOrigin => AddSourceParentBranch(env, st, v.0, v.1, BR)
    case AttachTip => AddBranchTip(env, st, v.0, v.1, H)
    case AttachMerge => AddParentBranch(env, st, v.0, v.1, M)
    case AttachBranchOff => AddBranchingLinks(env, st, v.0, v.1, BR)
  }

  /** What one visit of a step adds. */
  function Contrib(env: Env, step: Step, v: Visit): Contribution
  {
    match step
    case AttachOrigin => OriginContribution(env, v.0, v.1, BR)
    case AttachTip => TipContribution(env, v.1, H)
    case AttachMerge => MergeContribution(env, v.0, v.1, M)
    case AttachBranchOff => BranchOffContribution(env, v.1, BR)
  }

  /** A loop of `buildChangeSets` over its visits. */
  function RunAll(env: Env, step: Step, st: BuildState, vs: seq<Visit>): BuildState
    decreases |vs|
  {
    if |vs| == 0 then st else RunAll(env, step, Run(env, step, st, vs[0]), vs[1..])
  }

  /** What a whole loop adds, visit after visit. */
  function ContribAll(env: Env, step: Step, vs: seq<Visit>): Contribution
    decreases |vs|
  {
    if |vs| == 0 then Nothing else Combine(Contrib(env, step, vs[0]), ContribAll(env, step, vs[1..]))
  }

  /** Running a loop visit by visit, with its interleaved updates, has the
      same effect as applying everything it contributes in one go. */
  lemma {:induction false} RunAllIsApply(env: Env, step: Step, st: BuildState, vs: seq<Visit>)
    ensures RunAll(env, step, st, vs) == Apply(st, ContribAll(env, step, vs))
    decreases |vs|
  {
    if |vs| == 0 {
      assert st.leaves + [] == st.leaves;
    } else {
      var c0 := Contrib(env, step, vs[0]);
      assert Run(env, step, st, vs[0]) == Apply(st, c0);
      RunAllIsApply(env, step, Apply(st, c0), vs[1..]);
      ApplyCombine(st, c0, ContribAll(env, step, vs[1..]));
    }
  }

  /** Every key names a group with at least one changeset (`l[0]` and
      `l[-1]` would raise otherwise). */
  ghost predicate NonEmptyGroups(keys: seq<string>, brs: map<string, seq<CSet>>)
  {
    forall k :: k in keys ==> k in brs && |brs[k]| > 0
  }

  /** The first changeset of every group, in key order. */
  function FirstVisits(keys: seq<string>, brs: map<string, seq<CSet>>): (r: seq<Visit>)
    requires NonEmptyGroups(keys, brs)
    ensures |r| == |keys|
    ensures forall i :: 0 <= i < |keys| ==> r[i] == (keys[i], brs[keys[i]][0])
  {
    seq(|keys|, i requires 0 <= i < |keys| && NonEmptyGroups(keys, brs) => (keys[i], brs[keys[i]][0]))
  }

  /** The last changeset of every group, in key order. */
  function LastVisits(keys: seq<string>, brs: map<string, seq<CSet>>): (r: seq<Visit>)
    requires NonEmptyGroups(keys, brs)
    ensures |r| == |keys|
    ensures forall i :: 0 <= i < |keys| ==> r[i] == (keys[i], brs[keys[i]][|brs[keys[i]]| - 1])
  {
    seq(|keys|, i requires 0 <= i < |keys| && NonEmptyGroups(keys, brs) => (keys[i], brs[keys[i]][|brs[keys[i]]| - 1]))
  }

  /** The visits `(b, l[i])` for every index `i >= from` of `l`. */
  function Pairs(b: string, l: seq<CSet>, from: nat): (r: seq<Visit>)
    ensures forall v :: v in r <==> v.0 == b && exists j :: from <= j < |l| && v.1 == l[j]
  {
    if from >= |l| then []
    else
      var r := seq(|l| - from, i requires 0 <= i < |l| - from => (b, l[from + i]));
      assert forall j :: from <= j < |l| ==> r[j - from] == (b, l[j]);
      r
  }

  /** Nested loop `for b, l in brs.items(): for i in range(from, len(l))`. */
  function GroupVisits(keys: seq<string>, brs: map<string, seq<CSet>>, from: nat): (r: seq<Visit>)
    requires forall k :: k in keys ==> k in brs
    ensures forall v :: v in r <==> exists i, j :: 0 <= i < |keys| && from <= j < |brs[keys[i]]| && v == (keys[i], brs[keys[i]][j])
    decreases |keys|
  {
    if |keys| == 0 then []
    else
      var p := Pairs(keys[0], brs[keys[0]], from);
      var g := GroupVisits(keys[1..], brs, from);
      assert forall v :: v in g ==> exists i, j :: 0 <= i < |keys| && from <= j < |brs[keys[i]]| && v == (keys[i], brs[keys[i]][j]) by {
        forall v | v in g ensures exists i, j :: 0 <= i < |keys| && from <= j < |brs[keys[i]]| && v == (keys[i], brs[keys[i]][j]) {
          var i, j :| 0 <= i < |keys[1..]| && from <= j < |brs[keys[1..][i]]| && v == (keys[1..][i], brs[keys[1..][i]][j]);
          assert keys[1..][i] == keys[i + 1];
        }
      }
      assert forall i, j :: 0 <= i < |keys| && from <= j < |brs[keys[i]]| ==> (keys[i], brs[keys[i]][j]) in p + g by {
        forall i, j | 0 <= i < |keys| && from <= j < |brs[keys[i]]| ensures (keys[i], brs[keys[i]][j]) in p + g {
          if i > 0 {
            assert keys[1..][i - 1] == keys[i];
          }
        }
      }
      p + g
  }

  /** Everything the four loops contribute, in order. */
  function AttachContribution(env: Env, keys: seq<string>, brs: map<string, seq<CSet>>): Contribution
    requires NonEmptyGroups(keys, brs)
  {
    Combine(Combine(Combine(
      ContribAll(env, AttachOrigin, FirstVisits(keys, brs)),
      ContribAll(env, AttachTip, LastVisits(keys, brs))),
      ContribAll(env, AttachMerge, GroupVisits(keys, brs, 1))),
      ContribAll(env, AttachBranchOff, GroupVisits(keys, brs, 0)))
  }

  /** The four attachment loops of `buildChangeSets`, in their order: the
      outcome is applying the four loops' contributions in order. */
  function Attach(env: Env, keys: seq<string>, brs: map<string, seq<CSet>>): (r: BuildState)
    requires NonEmptyGroups(keys, brs)
    ensures r == Apply(Fresh, AttachContribution(env, keys, brs))
  {
    var c1 := ContribAll(env, AttachOrigin, FirstVisits(keys, brs));
    var c2 := ContribAll(env, AttachTip, LastVisits(keys, brs));
    var c3 := ContribAll(env, AttachMerge, GroupVisits(keys, brs, 1));
    var c4 := ContribAll(env, AttachBranchOff, GroupVisits(keys, brs, 0));
    var s1 := RunAll(env, AttachOrigin, Fresh, FirstVisits(keys, brs));
    var s2 := RunAll(env, AttachTip, s1, LastVisits(keys, brs));
    var s3 := RunAll(env, AttachMerge, s2, GroupVisits(keys, brs, 1));
    var s4 := RunAll(env, AttachBranchOff, s3, GroupVisits(keys, brs, 0));
    assert s4 == Apply(Fresh, Combine(Combine(Combine(c1, c2), c3), c4)) by {
      RunAllIsApply(env, AttachOrigin, Fresh, FirstVisits(keys, brs));
      RunAllIsApply(env, AttachTip, s1, LastVisits(keys, brs));
      ApplyCombine(Fresh, c1, c2);
      RunAllIsApply(env, AttachMerge, s2, GroupVisits(keys, brs, 1));
      ApplyCombine(Fresh, Combine(c1, c2), c3);
      RunAllIsApply(env, AttachBranchOff, s3, GroupVisits(keys, brs, 0));
      ApplyCombine(Fresh, Combine(Combine(c1, c2), c3), c4);
    }
    s4
  }

  /** The derived structures `buildChangeSets` leaves in `HgGraph`. */
  datatype Topology = Topology(
    branches: set<string>,
    keys: seq<string>,               // the insertion order of brs
    brs: map<string, seq<CSet>>,
    mainBranch: string,
    links: Links,
    tails: map<string, CSet>,
    tips: map<string, CSet>,
    leaves: seq<CSet>)

  /** The lookup after ingestion has added the whole log to the cache. */
  function Ingested(store: Store, source: Source, csets: seq<CSet>): Env
  {
    Env(AddAll(store, csets), source)
  }

  /** Inputs on which `buildChangeSets` does not raise: a non-empty log
      (`csets[0]`), every single-parent merge test resolvable, and no
      branch group left empty by the filter (`l[0]`). */
  ghost predicate Buildable(env: Env, csets: seq<CSet>)
  {
    && |csets| > 0
    && (forall c :: c in csets ==> MergeResolvable(env, c))
    && (forall c :: c in csets ==> |Group(env, csets, c.branch)| > 0)
  }

  /** `brs`: one group per branch key. */
  function Groups(env: Env, csets: seq<CSet>, keys: seq<string>): (brs: map<string, seq<CSet>>)
    ensures forall b :: b in brs <==> b in keys
    ensures forall b :: b in brs ==> brs[b] == Group(env, csets, b)
  {
    map b | b in keys :: Group(env, csets, b)
  }

  lemma GroupsNonEmpty(env: Env, csets: seq<CSet>)
    requires Buildable(env, csets)
    ensures NonEmptyGroups(BranchKeys(csets), Groups(env, csets, BranchKeys(csets)))
  {
    var keys := BranchKeys(csets);
    var brs := Groups(env, csets, keys);
    forall k | k in keys ensures k in brs && |brs[k]| > 0 {
      var c :| c in csets && c.branch == k;
    }
  }

  /** The map `brs` is keyed by the log's branches, and each group is
      sorted and holds exactly the kept changesets of its branch. */
  lemma GroupsShape(env: Env, csets: seq<CSet>)
    ensures var brs := Groups(env, csets, BranchKeys(csets));
      && brs.Keys == BranchSet(csets)
      && (forall b :: b in brs ==> SortedByRev(brs[b]))
      && forall b, c :: b in brs ==> (c in brs[b] <==> c in csets && Kept(env, b, c))
  {
  }

  /** `buildChangeSets`: ingest, group, then the four attachment loops. */
  function BuildChangeSets(store: Store, source: Source, csets: seq<CSet>): (t: Topology)
    requires Buildable(Ingested(store, source, csets), csets)
    ensures t.branches == t.brs.Keys == BranchSet(csets)
    ensures t.mainBranch == csets[0].branch
    ensures StrictlyIncreasing(t.keys) && forall b :: b in t.keys <==> b in t.brs
    ensures NonEmptyGroups(t.keys, t.brs)
    ensures forall b :: b in t.brs ==> SortedByRev(t.brs[b])
    ensures forall b, c :: b in t.brs ==>
      (c in t.brs[b] <==> c in csets && Kept(Ingested(store, source, csets), b, c))
    ensures var st := Attach(Ingested(store, source, csets), t.keys, t.brs);
      t.links == st.links && t.tails == st.tails && t.tips == st.tips && t.leaves == st.leaves
  {
    var env := Ingested(store, source, csets);
    var keys := BranchKeys(csets);
    var brs := Groups(env, csets, keys);
    GroupsNonEmpty(env, csets);
    GroupsShape(env, csets);
    var st := Attach(env, keys, brs);
    Topology(BranchSet(csets), keys, brs, csets[0].branch, st.links, st.tails, st.tips, st.leaves)
  }
}

=== FILE: wrappers.dfy ===
/** The optional value used wherever the source returns a record or `None`. */
module Wrappers {

  datatype Option<+T> = None | Some(value: T)

}
